=== FILE: README.md ===
# Grid path finding: obstacle grid, ant colony, any-angle search

A Dafny model of the solving core of a small path-finding sandbox. A
rectangular obstacle grid of air and wall cells sits in world space. Two
solvers look for a path from a start point to a goal point:

- an ant-colony optimiser on the integer lattice of pixel centres;
- an any-angle best-first ("A*") search that probes eight directions at a
  fixed step and accepts a straight segment wherever the grid's raycast
  allows it.

A background job runs a solver and publishes its answer for the
interactive loop to pick up. A small record keeps the solvers' timings.

Modules, one per source file:

- `Geometry` (`src/algorithm/types.rs`): `Vec2`, `Quad`, `Ray`,
  `RayHitInfo`, and a `Space` that bundles the numeric primitives the code
  borrows from its maths library and its grid: distance, normalisation,
  `powf`, the raycast and the pixel size. The subset types of these
  primitives carry the only facts the callers rely on:
  - a distance is non-negative and is 0 exactly between equal points;
  - a hit is never behind the ray's root;
  - the pixel size is positive.
- `Sight`: line of sight, identical in both solvers.
- `GridMap` (`src/algorithm/grid.rs`): the grid as a class over an
  `array<GridCell>`.
- `Problems` (`src/algorithm/problem.rs`): the problem record.
- `AntColony` (`src/algorithm/solve/aco.rs`): lattice nodes, directed
  lines and the pheromone map. It covers the choice rule (exploit argmax or
  weighted `roll`), the per-ant bookkeeping, the local and global updates,
  best-ant selection and the group loop. Random numbers are a supplied
  stream of unit draws.
- `AnyAngle` (`src/algorithm/solve/a_star.rs`): the node order, the probe
  directions, relaxation, the search loop and path reconstruction.
- `AsyncJob` (`src/game/async_pathfinding.rs`): the pathfinding task record, the
  worker's write order and the completion rule.
- `Timers` (`src/game/timer.rs`): the timing record.

The model follows the code in these places:

- The ant colony keeps the ant with the LONGEST accumulated length: its
  comparison is `>`.
- It returns the last group's chosen ant even when that ant never reached
  the goal.
- It keeps no memory between calls.
- The A* node order pops the smallest `f`. Among equal `f` it pops the
  LARGEST `h` first, because `h` is compared directly in `cmp`.

## Model

| member | source | states |
|---|---|---|
| Sight.HasSight | src/algorithm/solve/a_star.rs:185-202 | sight holds between equal points, and otherwise exactly when the raycast reports no hit strictly nearer than the target |
| Sight.SightDeniedOnlyByNearerHit | src/algorithm/solve/aco.rs:284-300 | a point always sees itself; denied sight means distinct points and a reported hit with 0 <= dist < distance |
| GridMap.AsUsize | src/algorithm/grid.rs:84-85 | the float-to-usize cast stays within usize and, in range, truncates to the integer part |
| GridMap.CellCoord | src/algorithm/grid.rs:84-85 | the cell coordinate saturates within usize; with a zero cell size any positive offset saturates (the +inf quotient) and a zero offset gives 0 (the NaN quotient) |
| GridMap.CellFloor | src/algorithm/grid.rs:84-85 | with a positive cell size, a non-negative offset whose coordinate is below usize::MAX lies in [k * c, k * c + c) for its coordinate k |
| GridMap.CoordBelow | src/algorithm/grid.rs:84-89 | a cell coordinate is below n exactly when the offset is below n cells |
| GridMap.Grid.constructor | src/algorithm/grid.rs:21-29 | the new grid has exactly width * height cells, all Air, and the given size, cell size and root; width * height must fit usize, as the allocation's multiplication requires |
| GridMap.Grid.GridPos | src/algorithm/grid.rs:103-109 | an index exists exactly for in-range (x, y); it is below width * height, and remainder and quotient by width give back x and y |
| GridMap.Grid.GridPosInjective | src/algorithm/grid.rs:103-109 | two in-range cells share an index only if they are the same cell |
| GridMap.Grid.Get | src/algorithm/grid.rs:43-46 | absent exactly out of range; otherwise the cell stored at the row-major index |
| GridMap.Grid.IsAir | src/algorithm/grid.rs:94-97 | absent exactly out of range; otherwise true exactly when the cell is Air |
| GridMap.Grid.IsWall | src/algorithm/grid.rs:98-101 | absent exactly out of range; otherwise true exactly when the cell is Wall |
| GridMap.Grid.AirXorWall | src/algorithm/grid.rs:94-101 | an in-range cell is exactly one of air and wall; out of range both queries are absent |
| GridMap.Grid.Set | src/algorithm/grid.rs:38-42 | out of range: None and no cell changes; in range: Some, that cell reads back as the new value, and every other cell reads as before |
| GridMap.Grid.WorldWidth | src/algorithm/grid.rs:48-50 | the world width is non-negative for a non-negative cell size, and with a positive cell size it is positive exactly when the grid has columns |
| GridMap.Grid.WorldHeight | src/algorithm/grid.rs:51-53 | the world height is non-negative for a non-negative cell size, and with a positive cell size it is positive exactly when the grid has rows |
| GridMap.Grid.BoundQuad | src/algorithm/grid.rs:55-60 | the bounding quad is anchored at the root with non-negative sides; with a positive cell size the root lies inside it exactly when the grid has cells |
| GridMap.Grid.GetCellQuad | src/algorithm/grid.rs:62-74 | absent exactly out of range; otherwise the quad at root + (x, y) * cell size with both sides equal to the cell size |
| GridMap.Grid.CellQuadWithinBounds | src/algorithm/grid.rs:55-74 | every cell's quad lies inside the grid's bounding quad |
| GridMap.Grid.GetFromWorldPos | src/algorithm/grid.rs:76-92 | a negative offset on either axis gives None, and any returned cell is in range |
| GridMap.Grid.WorldPosInBounds | src/algorithm/grid.rs:76-92 | with a positive cell size, a world point maps to a cell exactly when it lies in the bounding quad |
| GridMap.Grid.WorldPosInCell | src/algorithm/grid.rs:76-92 | a world point that maps to a cell lies inside that cell's quad |
| GridMap.Grid.WorldPosRoundTrip | src/algorithm/grid.rs:62-92 | the corner of a cell's quad maps back to that cell |
| AntColony.LineDirected | src/algorithm/solve/aco.rs:45-49 | lines are directed: Line(a, b) equals Line(b, a) only when a equals b |
| AntColony.Round | src/algorithm/solve/aco.rs:250-251 | rounding lands within one half of its argument |
| AntColony.SaturateI32 | src/algorithm/solve/aco.rs:249-252 | the i32 cast stays within i32 and keeps in-range values |
| AntColony.WorldToNodePos | src/algorithm/solve/aco.rs:244-254 | both coordinates lie in i32; on each axis whose rounded offset fits i32, the chosen node's centre is within half a pixel of the point |
| AntColony.NodeCoord | src/algorithm/solve/aco.rs:249-252 | one rounded, saturated coordinate: within i32, and centred within half a pixel when the rounding fits i32 |
| AntColony.NodeToWorldPos | src/algorithm/solve/aco.rs:255-261 | the world position is strictly inside the node's pixel square |
| AntColony.NodeWorldRoundTrip | src/algorithm/solve/aco.rs:244-261 | an i32 node maps to its pixel centre and back to itself |
| AntColony.NextNodeList | src/algorithm/solve/aco.rs:263-274 | eight neighbours in the fixed offset order, pairwise distinct, never the node, and exactly the king moves from it |
| AntColony.NodeHasSight | src/algorithm/solve/aco.rs:276-282 | a node sees itself, and another node exactly when the raycast between their centres reports no hit before the target centre |
| AntColony.GetHeuristic | src/algorithm/solve/aco.rs:236-240 | with elicitation > -1 the heuristic lies in (0, elicitation + 1], and it equals elicitation + 1 at the goal |
| AntColony.HeuristicPrefersNearer | src/algorithm/solve/aco.rs:236-240 | with a positive numerator the heuristic is positive and never smaller for a node nearer the goal |
| AntColony.GetPathValue | src/algorithm/solve/aco.rs:218-235 | a tabu target scores 1e-7 before sight is checked; an unseen target scores 1e-10; otherwise pheromone (default init) ^ alpha times heuristic ^ beta |
| AntColony.PathValues | src/algorithm/solve/aco.rs:191-200 | one score per neighbour, eight in all |
| AntColony.Walk | src/algorithm/solve/aco.rs:308-315 | the walk stops at an index at or after where it starts, or falls back to the last index |
| AntColony.CoinTotal | src/algorithm/solve/aco.rs:186-189 | the exploit coin's two weights always total 1, so its draw never panics |
| AntColony.Roll | src/algorithm/solve/aco.rs:302-316 | for weights of positive total (the draw's range panics otherwise) the loop returns an index of the weights, the one the cumulative walk defines for the draw |
| AntColony.WalkFirstCrossing | src/algorithm/solve/aco.rs:308-315 | the walk picks the first index whose running sum exceeds the draw, and the last index only when no running sum does |
| AntColony.RollLandsInBucket | src/algorithm/solve/aco.rs:302-316 | for non-negative weights of positive total and a draw in [0, 1), the pick's cumulative bucket holds the scaled draw and the pick's weight is positive |
| AntColony.ExploitCoin | src/algorithm/solve/aco.rs:186-189 | the exploit coin roll([c, 1 - c]) gives 0 exactly for draws below c |
| AntColony.FirstMax | src/algorithm/solve/aco.rs:202-210 | the exploit loop settles on the first strict maximum above -1, else index 0 |
| AntColony.FirstMaxUnique | src/algorithm/solve/aco.rs:202-210 | the exploit choice is unique: ties keep the earlier index |
| AntColony.CalculateNextNode | src/algorithm/solve/aco.rs:179-216 | when the scores have a positive total whenever the coin chooses sampling, the next node is one of the eight neighbours; a coin draw chooses between the exploit argmax and a weighted roll over the scores, using one or two draws |
| AntColony.UpdateLine | src/algorithm/solve/aco.rs:127-138 | the local update adds the walked line, sets it to (1 - rho) * old + rho * (q + 1) / (len + 1) with old defaulting to init, and leaves every other line |
| AntColony.DepositPositive | src/algorithm/solve/aco.rs:127-138 | with 0 <= rho <= 1 and q > -1 the update keeps a positive level positive |
| AntColony.UpdateLineKeepsPositive | src/algorithm/solve/aco.rs:127-138 | the local update keeps every level positive when init is positive |
| AntColony.PathLines | src/algorithm/solve/aco.rs:151-151 | every consecutive pair of the path is one of its lines |
| AntColony.DepositAlong | src/algorithm/solve/aco.rs:151-164 | the global update's keys are the old keys plus exactly the lines of the path |
| AntColony.DepositAlongFrame | src/algorithm/solve/aco.rs:151-164 | the global update leaves every entry off the path as it was |
| AntColony.DepositAlongValue | src/algorithm/solve/aco.rs:151-164 | on a path with no repeated line, each of its lines gets the rule once, from its value before the update |
| AntColony.DepositAlongCount | src/algorithm/solve/aco.rs:151-164 | on any path, including one that walks a line more than once, a line walked n times receives the rule n times in path order, starting from its old level (or the initial level); every other line keeps its level |
| AntColony.DepositAlongKeepsPositive | src/algorithm/solve/aco.rs:151-164 | the global update keeps every level positive |
| AntColony.PathValuesPositive | src/algorithm/solve/aco.rs:191-212 | with positive levels, a positive init and elicitation > -1, every neighbour scores above 0 (powf is positive on positive bases), so the weighted roll has a positive total |
| AntColony.Step | src/algorithm/solve/aco.rs:116-119 | a step's length is non-negative and 0 exactly for a step that stays put |
| AntColony.PathLength | src/algorithm/solve/aco.rs:115-119 | an ant's accumulated length is non-negative |
| AntColony.AntStep | src/algorithm/solve/aco.rs:99-138 | an ant at the goal leaves its entries, the levels and the draws alone; any other ant makes the choice rule's pick from the current levels and draws, appends it, adds it to its tabu set, adds the step length and applies the local rule to exactly the walked line with the new length; the ant invariant and positive levels are kept |
| AntColony.AntExtends | src/algorithm/solve/aco.rs:115-126 | appending a neighbour to an ant short of the goal keeps its start, king steps, tabu set and length consistent |
| AntColony.RunRound | src/algorithm/solve/aco.rs:98-140 | ant a moves from the levels and draw index left by ants 0..a-1 (phs[a], ks[a]) to those it leaves for ant a + 1, by the choice rule and the local update or not at all at the goal; the first state is the round's input and the last its output; each ant's invariant holds, positive levels stay positive, and only walked lines change |
| AntColony.SelectBest | src/algorithm/solve/aco.rs:142-149 | the chosen ant has the largest length, and every earlier ant a strictly smaller one |
| AntColony.DepositPath | src/algorithm/solve/aco.rs:151-164 | the windows loop applies the global rule to each consecutive pair in order |
| AntColony.WorldPath | src/algorithm/solve/aco.rs:166-172 | the returned path is the nodes' world centres, one for one |
| AntColony.PathFinding | src/algorithm/solve/aco.rs:71-177 | for parameters that keep every level positive: None exactly when there are no groups; otherwise an ant group's first-longest ant as world points, where every ant starts at the start node, moves by king steps, meets the goal at most at its end, and has walked every round unless it reached the goal |
| AnyAngle.Cmp | src/algorithm/solve/a_star.rs:24-32 | a node is greater when its f is smaller, or on equal f when its h is larger; less in the mirror case; equal exactly on equal f and h |
| AnyAngle.CmpReverse | src/algorithm/solve/a_star.rs:24-32 | swapping the arguments reverses the order |
| AnyAngle.CmpTransitive | src/algorithm/solve/a_star.rs:24-32 | "greater" is transitive |
| AnyAngle.Offset | src/algorithm/solve/a_star.rs:204-214 | each offset is a non-zero unit step or diagonal |
| AnyAngle.DirectionsDistinct | src/algorithm/solve/a_star.rs:61-75 | the iteration lists all eight directions, with eight different offsets |
| AnyAngle.New | src/algorithm/solve/a_star.rs:82-87 | the default strategy probes with a step of 20 units, which is positive |
| AnyAngle.Heuristic | src/algorithm/solve/a_star.rs:181-183 | the heuristic is non-negative and 0 exactly at the goal |
| AnyAngle.GetNewPos | src/algorithm/solve/a_star.rs:204-224 | a step of step_size along the direction, offered exactly when the root sees it |
| AnyAngle.PopBest | src/algorithm/solve/a_star.rs:111-111 | the pop removes one greatest node and keeps every other entry |
| AnyAngle.Expand | src/algorithm/solve/a_star.rs:132-155 | every probe position offered by the eight directions ends recorded at a cost no higher than the step through the popped node, and if that step improved on the old cost the successor (position, predecessor, g, h) was pushed; costs never rise; a cost and predecessor are written only on strict improvement, at one of the eight probe positions of the popped node, by a visible step from it; only improved successors at those probe positions are pushed |
| AnyAngle.ExpandKeepsInv | src/algorithm/solve/a_star.rs:106-155 | the start keeps cost 0, queued nodes stay recorded, every recorded point other than the start has a predecessor, and every predecessor link is visible and lowers the cost |
| AnyAngle.Reconstruct | src/algorithm/solve/a_star.rs:158-175 | after a search the chain always reaches the start, so the answer is Some: a path from start to goal with every pair joined by a visible predecessor link |
| AnyAngle.ChainExtend | src/algorithm/solve/a_star.rs:111-155 | an entry popped from a queue whose entries were all pushed by expanded positions extends the probe chain: its position is a probe position of an earlier expanded one |
| AnyAngle.StaleStep | src/algorithm/solve/a_star.rs:111-118 | skipping a stale entry is a step of the run (the greatest entry popped and dropped) and keeps the search invariant, the probe chain, the provenance of the queue and the coverage of every recorded point |
| AnyAngle.FoundStep | src/algorithm/solve/a_star.rs:120-130 | a non-stale entry that sees the goal ends the search: it becomes the goal's predecessor, it is the only expanded position that sees the goal, and the maps let the path be read back to the start |
| AnyAngle.FoundIsStep | src/algorithm/solve/a_star.rs:120-130 | popping a greatest non-stale entry that sees the goal is a step of the run: the goal is linked to it, it is appended to the expanded positions and the goal node is set, after which no further step is possible |
| AnyAngle.ExpandStep | src/algorithm/solve/a_star.rs:132-155 | expanding a non-stale entry that does not see the goal is a step of the run and keeps the search invariant, keeps every queued entry pushed by an expanded position, extends the probe chain and keeps every recorded point queued at its cost or closed |
| AnyAngle.ExhaustedStep | src/algorithm/solve/a_star.rs:111-111 | a loop that runs out of entries or fuel ends without the goal, with the fuel spent or the queue empty; with the queue empty every recorded point is closed |
| AnyAngle.InitState | src/algorithm/solve/a_star.rs:94-109 | before the first pop the queue holds the start entry alone and only the start is recorded, at cost 0 |
| AnyAngle.CoveredAfterStale | src/algorithm/solve/a_star.rs:111-118 | dropping a stale entry leaves every recorded point queued at its recorded cost or closed |
| AnyAngle.CoveredAfterExpand | src/algorithm/solve/a_star.rs:132-155 | after an expansion the expanded point is closed or queued again at its lower cost, and every other recorded point stays queued at its cost or closed |
| AnyAngle.ClosedReach | src/algorithm/solve/a_star.rs:111-155 | when every recorded point is closed, every position reachable from the start by probe steps is recorded and does not see the goal |
| AnyAngle.Unreachable | src/algorithm/solve/a_star.rs:111-155 | the same for all probe paths from the start at once |
| AnyAngle.SearchAnswer | src/algorithm/solve/a_star.rs:157-178 | the path read back after a search that found the goal, or None after one that did not, together with the run of the search, is an answer as `Answered` describes it (the clauses listed for `AnyAngle.PathFinding`) |
| AnyAngle.Search | src/algorithm/solve/a_star.rs:94-155 | the answer comes from a run of exactly as many loop steps as pops, from the start entry alone, each popping a greatest entry and then dropping it when stale, linking the goal when it sees the goal, or expanding it; at most `fuel` pops; without the goal, only once the fuel is spent or the queue is empty, and with the queue empty every recorded point is closed (it does not see the goal and every probe position it offers is recorded); the start is expanded first and every later expanded position is a probe position of an earlier one; only the last may see the goal, exactly when it was found, and it then is the goal's predecessor |
| AnyAngle.ReadBack | src/algorithm/solve/a_star.rs:157-178 | after a search, reading the path back through the predecessors when the goal node is set, and answering None otherwise, gives an answer as `Answered` describes it |
| AnyAngle.FindPath | src/algorithm/solve/a_star.rs:94-178 | with both ends given, the search loop followed by the read-back gives an answer as `Answered` describes it |
| AnyAngle.PathFinding | src/algorithm/solve/a_star.rs:90-179 | None without both ends, and a path only with both; with both, the answer is as `Answered` describes it: the pops form a run of the search loop from the start entry, as many steps as pops, where each step pops a greatest entry and drops it when stale, links the goal and sets the goal node when it sees the goal, and otherwise expands it, and no step follows the one that sets the goal node; at most `fuel` pops, and None only once the fuel is spent or the queue is empty, and with fuel left no position reachable from the start by probe steps sees the goal; the start is expanded first and every later expanded position is one of the eight probe positions of an earlier one; no expanded position but the last sees the goal, and a path is returned exactly when the last one does, which then is the goal's predecessor; the path runs from start to goal along visible predecessor links; a start that sees the goal gives the direct segment |
| AsyncJob.PathfindingTask.Default | src/game/async_pathfinding.rs:14-22 | no handle, an empty result slot and a lowered flag, in fresh slots |
| AsyncJob.PathfindingTask.Clone | src/game/async_pathfinding.rs:24-32 | the clone shares both slots and has no handle |
| AsyncJob.StartPathfindingThread | src/game/async_pathfinding.rs:34-58 | the new pathfinding task holds the worker's handle and fresh empty slots |
| AsyncJob.StoreResult | src/game/async_pathfinding.rs:44-46 | the worker's first write stores the answer and keeps "raised flag means stored answer" |
| AsyncJob.MarkComplete | src/game/async_pathfinding.rs:48-50 | the flag is raised only over a stored answer, which it leaves alone |
| AsyncJob.Worker | src/game/async_pathfinding.rs:40-51 | the worker ends with the answer stored and the flag raised |
| AsyncJob.AssemblePath | src/game/async_pathfinding.rs:70-85 | without both ends nothing; with both, start + answer + goal (two longer), or [start, goal] when the solver found nothing |
| AsyncJob.CheckCompletion | src/game/async_pathfinding.rs:60-97 | nothing happens unless the flag is raised and an answer is stored; then the assembled path is written |
| Timers.ResetTotalsOf | src/game/timer.rs:27-32 | totals and maxima become 0, last readings stay |
| Timers.ResetTotalsIdempotent | src/game/timer.rs:27-32 | resetting twice equals resetting once, and a reset is a no-op exactly on zero totals and maxima |
| Timers.AlgorithmTimers.Default | src/game/timer.rs:13-24 | all six fields start at 0 |
| Timers.AlgorithmTimers.ResetTotals | src/game/timer.rs:27-32 | the record becomes its reset: four fields zeroed, the two last readings unchanged |

## Left out

- Floating point: f32 and f64 are `real`. There is no NaN, infinity or rounding error. The NaN guard of `world_to_node_pos` has no counterpart. The cell-coordinate cast keeps the division-by-zero cases written out.
- The `to_bits` keys of the A* maps: points are keyed by exact equality, so -0.0 and 0.0 are one key here.
- The grid's raycast and pixel size are not part of this model. They are abstract, with only the facts listed above. `Vec2::distance`, `normalize_or_zero` and `powf` are abstract too.
- Randomness: `rand::rng()` becomes a stream of unit draws. A draw u in [0, 1) scales to u * total. The colony's statistical behaviour is not modelled.
- Threads and locks: `thread::spawn`, `JoinHandle`, `Arc<Mutex<_>>` and lock poisoning are left out. A shared slot is an object that several tasks point to. Only the sequential write order and the completion rule are modelled.
- The solver the worker runs is src/algorithm/solve/hybrid.rs, which is not part of this model. The worker takes its answer as a parameter.
- Engine glue: the game-state switch and the removal of the pathfinding-task resource become the `done` result of `CheckCompletion`. `log_timings` and the completion message are printing only.
- `AlgorithmResource` in src/game/algorithm_resource.rs has only a grid field. The completion check reads a `problem` and writes a `path`, so the model's resource holds those two.
- AnyAngle.PathFinding: the search loop is bounded by `fuel` pops. The code's loop has no bound and may plausibly not terminate, for example when the goal is walled in and the start is outside it: steps off the grid are not limited, and a ray that misses the grid reports no hit, so the search can keep finding new positions. This reading of the code is not confirmed by running it. A run out of fuel answers None.
- AnyAngle.PathFinding: each expansion step of the run is stated by the relations `Expand` promises (every improved probe pushed, nothing else written), not as one computed queue, so the order in which one expansion appends its entries is not pinned down.
- AnyAngle.Search: the loop is bounded by `fuel` pops, for the reason given for `AnyAngle.PathFinding`. The code keeps the goal node it builds (with its cost) in `goal_node`, but reads only whether it is set, so the model keeps a `found` flag, which is also the `found` field of the loop state in the run.
- AnyAngle.PopBest: among equally ranked nodes the earliest is taken. A binary heap may take any of them.
- AntColony.PathFinding: the contract does not state the pheromone values. The update rules are stated by `AntStep`, `RunRound`, `UpdateLine` and the `DepositAlong` lemmas.
- AntColony.PathFinding: the code unwraps both ends and the first ant, so those become requirements.
- AntColony.PathFinding: it requires parameters that keep every pheromone level positive (`SoundParameters`). The code demands only that each sampling draw has a positive total, where `random_range` would panic otherwise. The requirement is a sufficient condition for that, and stricter than it.
- AntColony.AntStep: it requires `SoundParameters` and positive levels to start from, which is stricter than the code's demand that the sampling draw has a positive total, for the same reason as for `AntColony.PathFinding`.
- AntColony.RunRound: it requires `SoundParameters` and positive levels to start from, which is stricter than the code's demand that every sampling draw of the round has a positive total, for the same reason as for `AntColony.PathFinding`.
- AntColony.PathFinding: the contract says the answer is the first-longest ant of one of the ant groups, not that it is the last group.
- AntColony.Roll: the panic of `random_range(0.0..total)` on a non-positive total becomes a requirement.
- AntColony.NextNodeList: the i32 additions are unbounded here. At a coordinate of i32::MAX or i32::MIN the code's `+ 1` / `- 1` panics in a debug build and wraps in a release build. Neither is modelled.
- AntColony.WorldToNodePos: nearness to the point is stated only for coordinates whose rounded offset fits i32. Beyond that the cast saturates.
- GridMap.Grid.constructor: `width * height` overflowing usize panics in a debug build and wraps in a release build. The model requires the product to fit.

=== FILE: aco.dfy ===
/** The ant-colony solver (src/algorithm/solve/aco.rs).

    The world is discretised into an integer lattice of pixel-sized nodes.
    Groups of ants walk the 8-connected lattice from the start node; each step
    chooses a neighbour either greedily (the best pheromone/heuristic score) or
    by weighted sampling, and deposits pheromone on the traversed directed
    edge. After each group the chosen ant's path reinforces a group-spanning
    pheromone map, and the last group's chosen path is returned.

    The random number generator becomes a caller-supplied stream `rng` of
    unit draws; a counter says how many have been used. */
module AntColony {
  import opened Geometry
  import opened Sight
  import opened Problems

  /** A lattice node; equality is coordinate equality. */
  datatype Node = Node(x: int, y: int)

  /** A directed lattice edge, the key of the pheromone map. */
  datatype Line = Line(from: Node, to: Node)

  type Pheromones = map<Line, real>

  /** The solver's parameters (the `u32` counts are naturals). */
  datatype AcoStrategy = AcoStrategy(
    exploitationChance: real,
    alpha: real,
    beta: real,
    elicitationConstant: real,
    evaporationCoefficient: real,
    depositConstant: real,
    globalEvaporationCoefficient: real,
    globalDepositConstant: real,
    initPheromone: real,
    numberPerAntGroup: nat,
    maxAntGroupTry: nat,
    numberAntGroup: nat)

  /** Lines are directed: reversing a line between two distinct nodes gives
      a different key. */
  lemma LineDirected(a: Node, b: Node)
    ensures Line(a, b) == Line(b, a) <==> a == b
    ensures Line(a, b).from == a && Line(a, b).to == b
  {
  }

  // ---------------------------------------------------------------------
  // World <-> lattice conversions

  const I32_MIN: int := -0x8000_0000
  const I32_MAX: int := 0x7FFF_FFFF

  /** `f32::round`: to the nearest integer, halves away from zero. */
  function Round(v: real): (n: int)
    ensures -0.5 <= v - n as real <= 0.5
  {
    if v >= 0.0 then (v + 0.5).Floor else -((-v + 0.5).Floor)
  }

  /** `as i32` on an already rounded float: saturation at the i32 bounds. */
  function SaturateI32(n: int): (r: int)
    ensures I32_MIN <= r <= I32_MAX
    ensures I32_MIN <= n <= I32_MAX ==> r == n
  {
    if n < I32_MIN then I32_MIN else if n > I32_MAX then I32_MAX else n
  }

  /** The rounded pixel offset of w fits i32, so `as i32` does not
      saturate. */
  predicate RoundsInI32(w: real, p: real)
    requires p > 0.0
  {
    I32_MIN <= Round((w - p / 2.0) / p) <= I32_MAX
  }

  /** The centre of pixel n (n * p + p / 2, as `NodeToWorldPos` places it)
      is within half a pixel of w. */
  predicate Centred(n: int, w: real, p: real)
  {
    -p / 2.0 <= n as real * p + p / 2.0 - w <= p / 2.0
  }

  /** `world_to_node_pos` (its NaN guard has no counterpart over reals):
      the node whose centre is within half a pixel, unless the rounded
      coordinate lies outside i32, where the cast saturates. */
  function WorldToNodePos(wpos: Vec2, sp: Space): (r: Node)
    ensures I32_MIN <= r.x <= I32_MAX && I32_MIN <= r.y <= I32_MAX
    ensures RoundsInI32(wpos.x, sp.pixelSize) ==> Centred(r.x, wpos.x, sp.pixelSize)
    ensures RoundsInI32(wpos.y, sp.pixelSize) ==> Centred(r.y, wpos.y, sp.pixelSize)
  {
    Node(NodeCoord(wpos.x, sp.pixelSize), NodeCoord(wpos.y, sp.pixelSize))
  }

  /** One coordinate of `world_to_node_pos`: round the pixel offset and
      saturate to i32. */
  function NodeCoord(w: real, p: real): (n: int)
    requires p > 0.0
    ensures I32_MIN <= n <= I32_MAX
    ensures RoundsInI32(w, p) ==> Centred(n, w, p)
  {
    var v := (w - p / 2.0) / p;
    var m := Round(v);
    assert w == v * p + p / 2.0;
    MulLeq(v - m as real, 0.5, p);
    MulLeq(-0.5, v - m as real, p);
    assert m as real * p + p / 2.0 - w == -((v - m as real) * p);
    SaturateI32(m)
  }

  /** `node_to_world_pos`: the centre of the node's pixel, strictly inside
      the pixel's square. */
  function NodeToWorldPos(n: Node, sp: Space): (r: Vec2)
    ensures n.x as real * sp.pixelSize < r.x < (n.x + 1) as real * sp.pixelSize
    ensures n.y as real * sp.pixelSize < r.y < (n.y + 1) as real * sp.pixelSize
  {
    var p := sp.pixelSize;
    Vec2(n.x as real * p + p / 2.0, n.y as real * p + p / 2.0)
  }

  /** A node within i32 range survives the trip to the world and back. */
  lemma {:induction false} NodeWorldRoundTrip(n: Node, sp: Space)
    requires I32_MIN <= n.x <= I32_MAX && I32_MIN <= n.y <= I32_MAX
    ensures WorldToNodePos(NodeToWorldPos(n, sp), sp) == n
  {
    var p := sp.pixelSize;
    var w := NodeToWorldPos(n, sp);
    assert (w.x - p / 2.0) / p == n.x as real;
    assert (w.y - p / 2.0) / p == n.y as real;
    RoundIntegral(n.x);
    RoundIntegral(n.y);
  }

  lemma RoundIntegral(n: int)
    ensures Round(n as real) == n
  {
  }

  // ---------------------------------------------------------------------
  // The lattice neighbourhood

  /** m is one king move away from n. */
  predicate Adjacent(n: Node, m: Node)
  {
    n != m && -1 <= m.x - n.x <= 1 && -1 <= m.y - n.y <= 1
  }

  /** The probe order: E, NE, N, NW, W, SW, S, SE with y growing "down". */
  const OFFSETS: seq<(int, int)> :=
    [(1, 0), (1, -1), (0, -1), (-1, -1), (-1, 0), (-1, 1), (0, 1), (1, 1)]

  function NextNodeList(n: Node): (r: seq<Node>)
    ensures |r| == 8
    ensures forall i :: 0 <= i < 8 ==> r[i] == Node(n.x + OFFSETS[i].0, n.y + OFFSETS[i].1)
    ensures forall m :: m in r <==> Adjacent(n, m)
    ensures forall i, j :: 0 <= i < j < 8 ==> r[i] != r[j]
    ensures n !in r
  {
    var r := [
      Node(n.x + 1, n.y + 0),
      Node(n.x + 1, n.y - 1),
      Node(n.x + 0, n.y - 1),
      Node(n.x - 1, n.y - 1),
      Node(n.x - 1, n.y + 0),
      Node(n.x - 1, n.y + 1),
      Node(n.x + 0, n.y + 1),
      Node(n.x + 1, n.y + 1)];
    assert forall m :: Adjacent(n, m) ==> m in r by {
      forall m | Adjacent(n, m) ensures m in r {
        var dx, dy := m.x - n.x, m.y - n.y;
        if dx == 1 && dy == 0 { assert m == r[0]; }
        else if dx == 1 && dy == -1 { assert m == r[1]; }
        else if dx == 0 && dy == -1 { assert m == r[2]; }
        else if dx == -1 && dy == -1 { assert m == r[3]; }
        else if dx == -1 && dy == 0 { assert m == r[4]; }
        else if dx == -1 && dy == 1 { assert m == r[5]; }
        else if dx == 0 && dy == 1 { assert m == r[6]; }
        else { assert m == r[7]; }
      }
    }
    r
  }

  // ---------------------------------------------------------------------
  // Scoring a step

  function PheromoneOf(ph: Pheromones, line: Line, init: real): real
  {
    if line in ph then ph[line] else init
  }

  /** `has_sight` between the world centres of two nodes: a node sees
      itself, and another node exactly when no hit lies before its centre. */
  function NodeHasSight(from: Node, to: Node, sp: Space): (r: bool)
    ensures r <==>
      (from == to || !BlockedBefore(sp, NodeToWorldPos(from, sp), NodeToWorldPos(to, sp)))
  {
    HasSight(sp, NodeToWorldPos(from, sp), NodeToWorldPos(to, sp))
  }

  /** `get_heuristic`: (elicitation + 1) / (distance to the goal + 1). */
  function GetHeuristic(s: AcoStrategy, node: Node, goal: Vec2, sp: Space): (r: real)
    ensures s.elicitationConstant > -1.0 ==> 0.0 < r <= s.elicitationConstant + 1.0
    ensures NodeToWorldPos(node, sp) == goal ==> r == s.elicitationConstant + 1.0
  {
    (s.elicitationConstant + 1.0) / (sp.distance(NodeToWorldPos(node, sp), goal) + 1.0)
  }

  /** With a positive numerator, a node nearer the goal never scores lower. */
  lemma HeuristicPrefersNearer(s: AcoStrategy, a: Node, b: Node, goal: Vec2, sp: Space)
    requires s.elicitationConstant > -1.0
    requires sp.distance(NodeToWorldPos(a, sp), goal) <= sp.distance(NodeToWorldPos(b, sp), goal)
    ensures 0.0 < GetHeuristic(s, b, goal, sp) <= GetHeuristic(s, a, goal, sp)
  {
    var c := s.elicitationConstant + 1.0;
    var da := sp.distance(NodeToWorldPos(a, sp), goal) + 1.0;
    var db := sp.distance(NodeToWorldPos(b, sp), goal) + 1.0;
    assert c / db * db == c;
    assert c / da * da == c;
    assert 0.0 < c / db by {
      if c / db <= 0.0 { MulLeq(c / db, 0.0, db); }
    }
    if c / db > c / da {
      MulLess(c / da, c / db, db);
      MulLeq(da, db, c / da);
      assert false;
    }
  }

  const TABU_VALUE: real := 0.0000001
  const BLOCKED_VALUE: real := 0.0000000001

  /** `get_path_value`: a visited target scores 1e-7 (checked first), an
      invisible one 1e-10, any other pheromone^alpha * heuristic^beta. */
  function GetPathValue(s: AcoStrategy, line: Line, ph: Pheromones, tabu: set<Node>,
                        goal: Vec2, sp: Space): (r: real)
    ensures line.to in tabu ==> r == TABU_VALUE
    ensures line.to !in tabu && !NodeHasSight(line.from, line.to, sp) ==> r == BLOCKED_VALUE
    ensures line.to !in tabu && NodeHasSight(line.from, line.to, sp) ==>
      r == sp.powf(PheromoneOf(ph, line, s.initPheromone), s.alpha)
           * sp.powf(GetHeuristic(s, line.to, goal, sp), s.beta)
  {
    if line.to in tabu then TABU_VALUE
    else if !NodeHasSight(line.from, line.to, sp) then BLOCKED_VALUE
    else sp.powf(PheromoneOf(ph, line, s.initPheromone), s.alpha)
         * sp.powf(GetHeuristic(s, line.to, goal, sp), s.beta)
  }

  /** The scores of the eight neighbours, in probe order. */
  function PathValues(s: AcoStrategy, node: Node, ph: Pheromones, tabu: set<Node>,
                      goal: Vec2, sp: Space): (v: seq<real>)
    ensures |v| == 8
  {
    var next := NextNodeList(node);
    seq(8, i requires 0 <= i < 8 => GetPathValue(s, Line(node, next[i]), ph, tabu, goal, sp))
  }

  // ---------------------------------------------------------------------
  // Weighted choice (`roll`)

  /** `weights.iter().sum()`, a left fold. */
  function Sum(w: seq<real>): real
  {
    if w == [] then 0.0 else Sum(w[..|w| - 1]) + w[|w| - 1]
  }

  /** A sum of positive weights is positive (and 0 when empty). */
  lemma {:induction false} SumPositive(w: seq<real>)
    requires forall j :: 0 <= j < |w| ==> w[j] > 0.0
    ensures Sum(w) >= 0.0
    ensures |w| > 0 ==> Sum(w) > 0.0
  {
    if w != [] {
      SumPositive(w[..|w| - 1]);
    }
  }

  lemma SumStep(w: seq<real>, k: nat)
    requires k < |w|
    ensures Sum(w[..k + 1]) == Sum(w[..k]) + w[k]
  {
    assert w[..k + 1][..k] == w[..k];
  }

  /** The exploit coin `[c, 1 - c]` always has total 1. */
  lemma CoinTotal(c: real)
    ensures Sum([c, 1.0 - c]) == 1.0
  {
    assert [c, 1.0 - c][..1] == [c];
    assert [c][..0] == [];
    assert Sum([c]) == c;
    assert Sum([c, 1.0 - c]) == Sum([c]) + (1.0 - c);
  }

  /** The walk of `roll` from index i with `random` left: the first index at
      which subtracting its weight drops below zero, else the last index. */
  function Walk(w: seq<real>, random: real, i: nat): (k: nat)
    requires 0 < |w| && i <= |w|
    ensures i <= k < |w| || (i == |w| && k == |w| - 1)
    decreases |w| - i
  {
    if i == |w| then |w| - 1
    else if random - w[i] < 0.0 then i
    else Walk(w, random - w[i], i + 1)
  }

  /** `rng.random_range(0.0..total)` when the generator yields the unit
      draw u. */
  function RangeDraw(u: real, total: real): real
  {
    u * total
  }

  /** The index `roll` picks for the unit draw u. */
  function RollIndex(w: seq<real>, u: real): nat
    requires 0 < |w|
  {
    Walk(w, RangeDraw(u, Sum(w)), 0)
  }

  /** `roll`. The draw `random_range(0.0..total)` panics on an empty range,
      so the weights must have a positive total. */
  method Roll(weights: seq<real>, u: real) returns (i: nat)
    requires 0 < |weights| && Sum(weights) > 0.0
    ensures i < |weights|
    ensures i == RollIndex(weights, u)
  {
    var total := Sum(weights);
    var random := RangeDraw(u, total);
    var j := 0;
    while j < |weights|
      invariant 0 <= j <= |weights|
      invariant Walk(weights, random, j) == RollIndex(weights, u)
    {
      random := random - weights[j];
      if random < 0.0 {
        return j;
      }
      j := j + 1;
    }
    i := |weights| - 1;
  }

  /** The walk stops at the first index whose running sum exceeds the draw,
      and falls back to the last index only when no running sum does. */
  lemma {:induction false} WalkFirstCrossing(w: seq<real>, r: real, i: nat)
    requires 0 < |w| && i <= |w|
    ensures var k := Walk(w, r - Sum(w[..i]), i);
      (forall j :: i < j <= k ==> r - Sum(w[..j]) >= 0.0) &&
      ((i <= k && r - Sum(w[..k + 1]) < 0.0) ||
       (k == |w| - 1 && forall j :: i < j <= |w| ==> r - Sum(w[..j]) >= 0.0))
    decreases |w| - i
  {
    if i < |w| {
      SumStep(w, i);
      assert r - Sum(w[..i]) - w[i] == r - Sum(w[..i + 1]);
      if r - Sum(w[..i + 1]) >= 0.0 {
        assert Walk(w, r - Sum(w[..i]), i) == Walk(w, r - Sum(w[..i + 1]), i + 1);
        WalkFirstCrossing(w, r, i + 1);
      }
    }
  }

  /** Weighted sampling: with non-negative weights of positive total and a
      unit draw in [0, 1), `roll` picks the index whose cumulative bucket
      [Sum(w[..k]), Sum(w[..k+1])) holds the scaled draw; in particular it
      never picks a weight of zero. */
  lemma {:induction false} RollLandsInBucket(w: seq<real>, u: real)
    requires 0 < |w| && 0.0 <= u < 1.0
    requires forall j :: 0 <= j < |w| ==> w[j] >= 0.0
    requires Sum(w) > 0.0
    ensures var k := RollIndex(w, u);
      Sum(w[..k]) <= RangeDraw(u, Sum(w)) < Sum(w[..k + 1]) && w[k] > 0.0
  {
    var total := Sum(w);
    var r := RangeDraw(u, total);
    DrawInRange(u, total);
    assert w[..0] == [] && w[..|w|] == w;
    assert r - Sum(w[..0]) == r;
    WalkFirstCrossing(w, r, 0);
    var k := RollIndex(w, u);
    assert k == Walk(w, r - Sum(w[..0]), 0);
    assert r - Sum(w[..k + 1]) < 0.0 by {
      if k == |w| - 1 {
        assert w[..k + 1] == w;
      }
    }
    if k > 0 {
      assert r - Sum(w[..k]) >= 0.0;
    }
    SumStep(w, k);
  }

  /** A unit draw in [0, 1) scales into [0, total). */
  lemma DrawInRange(u: real, total: real)
    requires 0.0 <= u < 1.0 && total > 0.0
    ensures 0.0 <= RangeDraw(u, total) < total
  {
    MulLess(u, 1.0, total);
    MulLeq(0.0, u, total);
  }

  /** The exploit coin `roll([c, 1 - c])` yields 0 exactly for draws below c. */
  lemma ExploitCoin(c: real, u: real)
    ensures RollIndex([c, 1.0 - c], u) == 0 <==> u < c
  {
    var w := [c, 1.0 - c];
    assert w[..1] == [c] && [c][..0] == [];
    assert Sum([c]) == c;
    assert Sum(w) == 1.0;
    assert RangeDraw(u, 1.0) == u;
  }

  // ---------------------------------------------------------------------
  // Choosing the next node

  /** Index i is what the exploit loop (start at max = -1, index 0, replace
      on a strictly larger value) settles on: the first strict maximum when
      some value exceeds -1, else index 0. */
  ghost predicate IsFirstMax(v: seq<real>, i: nat)
  {
    i < |v| &&
    ((exists j :: 0 <= j < |v| && v[j] > -1.0) ==>
       v[i] > -1.0 && (forall j :: 0 <= j < |v| ==> v[j] <= v[i]) &&
       forall j :: 0 <= j < i ==> v[j] < v[i]) &&
    ((forall j :: 0 <= j < |v| ==> v[j] <= -1.0) ==> i == 0)
  }

  /** The exploit choice is determined: ties keep the earlier index. */
  lemma FirstMaxUnique(v: seq<real>, i: nat, i': nat)
    requires IsFirstMax(v, i) && IsFirstMax(v, i')
    ensures i == i'
  {
  }

  ghost predicate IsExploitChoice(v: seq<real>, nodes: seq<Node>, next: Node)
  {
    exists i: nat :: i < |nodes| && nodes[i] == next && IsFirstMax(v, i)
  }

  /** The exploit loop of `calculate_next_node`: start from index 0 with
      max = -1 and move to every strictly larger value. */
  method FirstMax(v: seq<real>) returns (res: nat)
    requires 0 < |v|
    ensures IsFirstMax(v, res)
  {
    var max := -1.0;
    res := 0;
    ghost var found := false;
    for i := 0 to |v|
      invariant res < |v|
      invariant found <==> exists j :: 0 <= j < i && v[j] > -1.0
      invariant found ==> res < i && max == v[res] && max > -1.0
      invariant found ==> forall j :: 0 <= j < i ==> v[j] <= max
      invariant found ==> forall j :: 0 <= j < res ==> v[j] < max
      invariant !found ==> max == -1.0 && res == 0
    {
      if v[i] > max {
        max := v[i];
        res := i;
        found := true;
      }
    }
  }

  /** The rule of `calculate_next_node`, with draws taken from rng at k: the
      coin `roll([c, 1 - c])` takes draw k; on 0 the exploit choice is made,
      otherwise draw k + 1 samples a neighbour weighted by its score. k' is
      the first unused draw. */
  ghost predicate NextChoice(s: AcoStrategy, node: Node, ph: Pheromones, tabu: set<Node>,
                             goal: Vec2, sp: Space, rng: nat -> real, k: nat, next: Node, k': nat)
  {
    var exploit := RollIndex([s.exploitationChance, 1.0 - s.exploitationChance], rng(k)) == 0;
    var values := PathValues(s, node, ph, tabu, goal, sp);
    (exploit ==> (k' == k + 1 && IsExploitChoice(values, NextNodeList(node), next))) &&
    (!exploit ==> (k' == k + 2 && next == NextNodeList(node)[RollIndex(values, rng(k + 1))]))
  }

  method CalculateNextNode(s: AcoStrategy, node: Node, ph: Pheromones, tabu: set<Node>,
                           goal: Vec2, sp: Space, rng: nat -> real, k: nat)
    returns (next: Node, k': nat)
    requires RollIndex([s.exploitationChance, 1.0 - s.exploitationChance], rng(k)) != 0 ==>
      Sum(PathValues(s, node, ph, tabu, goal, sp)) > 0.0
    ensures next in NextNodeList(node) && Adjacent(node, next)
    ensures NextChoice(s, node, ph, tabu, goal, sp, rng, k, next, k')
  {
    CoinTotal(s.exploitationChance);
    var isExploit := Roll([s.exploitationChance, 1.0 - s.exploitationChance], rng(k));
    k' := k + 1;

    var nextValues: seq<real> := [];
    var nextNodes := NextNodeList(node);
    for i := 0 to 8
      invariant nextValues == PathValues(s, node, ph, tabu, goal, sp)[..i]
    {
      nextValues := nextValues + [GetPathValue(s, Line(node, nextNodes[i]), ph, tabu, goal, sp)];
    }
    assert nextValues == PathValues(s, node, ph, tabu, goal, sp);

    if isExploit == 0 {
      var res := FirstMax(nextValues);
      next := nextNodes[res];
    } else {
      var pick := Roll(nextValues, rng(k'));
      k' := k' + 1;
      next := nextNodes[pick];
    }
  }

  // ---------------------------------------------------------------------
  // Pheromone updates

  /** The evaporation/deposit rule: (1 - rho) * old + rho * ((q + 1) / (len + 1)). */
  function Deposit(prev: real, rho: real, q: real, len: real): real
    requires len >= 0.0
  {
    (1.0 - rho) * prev + rho * ((q + 1.0) / (len + 1.0))
  }

  /** One update of a line, starting from `init` when the line is new. Only
      that line changes. */
  function UpdateLine(ph: Pheromones, line: Line, rho: real, q: real, len: real, init: real)
    : (r: Pheromones)
    requires len >= 0.0
    ensures r.Keys == ph.Keys + {line}
    ensures r[line] == Deposit(PheromoneOf(ph, line, init), rho, q, len)
    ensures forall l :: l in ph && l != line ==> r[l] == ph[l]
  {
    if line in ph then ph[line := Deposit(ph[line], rho, q, len)]
    else ph[line := Deposit(init, rho, q, len)]
  }

  /** The directed lines between consecutive nodes of a path. */
  function PathLines(p: seq<Node>): (ls: set<Line>)
    ensures forall i :: 0 <= i < |p| - 1 ==> Line(p[i], p[i + 1]) in ls
  {
    if |p| < 2 then {} else {Line(p[0], p[1])} + PathLines(p[1..])
  }

  /** `best_path.windows(2).for_each(...)`: the update applied to each
      consecutive pair in order. */
  function DepositAlong(ph: Pheromones, p: seq<Node>, rho: real, q: real, len: real, init: real)
    : (r: Pheromones)
    requires len >= 0.0
    ensures r.Keys == ph.Keys + PathLines(p)
    decreases |p|
  {
    if |p| < 2 then ph
    else DepositAlong(UpdateLine(ph, Line(p[0], p[1]), rho, q, len, init), p[1..], rho, q, len, init)
  }

  /** The global update leaves every line off the path as it was. */
  lemma {:induction false} DepositAlongFrame(ph: Pheromones, p: seq<Node>, rho: real, q: real,
                                             len: real, init: real)
    requires len >= 0.0
    ensures forall l :: l in ph && l !in PathLines(p) ==>
      DepositAlong(ph, p, rho, q, len, init)[l] == ph[l]
    decreases |p|
  {
    if |p| >= 2 {
      DepositAlongFrame(UpdateLine(ph, Line(p[0], p[1]), rho, q, len, init), p[1..], rho, q, len, init);
    }
  }

  /** On a path that never repeats a line, each of its lines receives the
      rule exactly once, from its value before the update. */
  lemma {:induction false} DepositAlongValue(ph: Pheromones, p: seq<Node>, rho: real, q: real,
                                             len: real, init: real, i: nat)
    requires len >= 0.0 && i + 1 < |p|
    requires forall a, b :: 0 <= a < b < |p| - 1 ==> Line(p[a], p[a + 1]) != Line(p[b], p[b + 1])
    ensures Line(p[i], p[i + 1]) in DepositAlong(ph, p, rho, q, len, init)
    ensures DepositAlong(ph, p, rho, q, len, init)[Line(p[i], p[i + 1])]
      == Deposit(PheromoneOf(ph, Line(p[i], p[i + 1]), init), rho, q, len)
    decreases |p|
  {
    var ph' := UpdateLine(ph, Line(p[0], p[1]), rho, q, len, init);
    DepositAlongFrame(ph, p, rho, q, len, init);
    DepositAlongFrame(ph', p[1..], rho, q, len, init);
    if i == 0 {
      assert Line(p[0], p[1]) !in PathLines(p[1..]) by {
        PathLinesMembers(p[1..]);
      }
    } else {
      DepositAlongValue(ph', p[1..], rho, q, len, init, i - 1);
      assert p[1..][i - 1] == p[i] && p[1..][i] == p[i + 1];
      assert Line(p[0], p[1]) != Line(p[i], p[i + 1]);
    }
  }

  /** How many times the line is walked along the path. */
  function Occurrences(p: seq<Node>, l: Line): (n: nat)
    ensures n == 0 <==> l !in PathLines(p)
    decreases |p|
  {
    if |p| < 2 then 0
    else (if Line(p[0], p[1]) == l then 1 else 0) + Occurrences(p[1..], l)
  }

  /** The rule applied n times in a row. */
  function DepositTimes(prev: real, rho: real, q: real, len: real, n: nat): real
    requires len >= 0.0
    decreases n
  {
    if n == 0 then prev else DepositTimes(Deposit(prev, rho, q, len), rho, q, len, n - 1)
  }

  /** On any path, a line walked n times receives the rule n times, each
      from the value the previous one left, starting from its level before
      the update (or `init`); every other line keeps its level. */
  lemma {:induction false} DepositAlongCount(ph: Pheromones, p: seq<Node>, rho: real, q: real,
                                             len: real, init: real)
    requires len >= 0.0
    ensures forall l :: l in DepositAlong(ph, p, rho, q, len, init) ==>
      DepositAlong(ph, p, rho, q, len, init)[l]
        == DepositTimes(PheromoneOf(ph, l, init), rho, q, len, Occurrences(p, l))
    decreases |p|
  {
    if |p| >= 2 {
      var first := Line(p[0], p[1]);
      var ph' := UpdateLine(ph, first, rho, q, len, init);
      DepositAlongCount(ph', p[1..], rho, q, len, init);
      forall l | l in DepositAlong(ph, p, rho, q, len, init)
        ensures DepositAlong(ph, p, rho, q, len, init)[l]
          == DepositTimes(PheromoneOf(ph, l, init), rho, q, len, Occurrences(p, l))
      {
        if l == first {
          assert PheromoneOf(ph', l, init) == Deposit(PheromoneOf(ph, l, init), rho, q, len);
        } else {
          assert PheromoneOf(ph', l, init) == PheromoneOf(ph, l, init);
        }
      }
    }
  }

  /** Every pheromone entry is positive. */
  ghost predicate PositivePheromones(ph: Pheromones)
  {
    forall l :: l in ph ==> ph[l] > 0.0
  }

  /** With 0 <= rho <= 1 and q > -1 the rule keeps a positive level
      positive: the old level is scaled by 1 - rho >= 0 and a positive
      deposit is added with weight rho. */
  lemma DepositPositive(prev: real, rho: real, q: real, len: real)
    requires len >= 0.0 && prev > 0.0 && 0.0 <= rho <= 1.0 && q > -1.0
    ensures Deposit(prev, rho, q, len) > 0.0
  {
    var d := (q + 1.0) / (len + 1.0);
    assert d * (len + 1.0) == q + 1.0;
    assert d > 0.0 by {
      if d <= 0.0 { MulLeq(d, 0.0, len + 1.0); }
    }
    MulLeq(0.0, 1.0 - rho, prev);
    assert (1.0 - rho) * prev >= 0.0;
    if rho == 0.0 {
      assert Deposit(prev, rho, q, len) == prev;
    } else {
      MulLess(0.0, rho, d);
      assert rho * d > 0.0;
      assert Deposit(prev, rho, q, len) == (1.0 - rho) * prev + rho * d;
    }
  }

  /** The local update keeps every level positive when the initial level is
      positive. */
  lemma UpdateLineKeepsPositive(ph: Pheromones, line: Line, rho: real, q: real, len: real, init: real)
    requires PositivePheromones(ph) && init > 0.0
    requires len >= 0.0 && 0.0 <= rho <= 1.0 && q > -1.0
    ensures PositivePheromones(UpdateLine(ph, line, rho, q, len, init))
  {
    DepositPositive(PheromoneOf(ph, line, init), rho, q, len);
  }

  /** So does the global update along a whole path. */
  lemma {:induction false} DepositAlongKeepsPositive(ph: Pheromones, p: seq<Node>, rho: real, q: real,
                                                     len: real, init: real)
    requires PositivePheromones(ph) && init > 0.0
    requires len >= 0.0 && 0.0 <= rho <= 1.0 && q > -1.0
    ensures PositivePheromones(DepositAlong(ph, p, rho, q, len, init))
    decreases |p|
  {
    if |p| >= 2 {
      var ph' := UpdateLine(ph, Line(p[0], p[1]), rho, q, len, init);
      UpdateLineKeepsPositive(ph, Line(p[0], p[1]), rho, q, len, init);
      DepositAlongKeepsPositive(ph', p[1..], rho, q, len, init);
    }
  }

  /** Parameter ranges under which every pheromone level stays positive:
      a positive initial level, heuristic numerator and deposit numerators,
      and evaporation coefficients between 0 and 1. */
  predicate SoundParameters(s: AcoStrategy)
  {
    s.initPheromone > 0.0 && s.elicitationConstant > -1.0 &&
    0.0 <= s.evaporationCoefficient <= 1.0 && s.depositConstant > -1.0 &&
    0.0 <= s.globalEvaporationCoefficient <= 1.0 && s.globalDepositConstant > -1.0
  }

  /** With positive levels, a positive initial level and a positive
      heuristic numerator every neighbour scores above zero (`powf` maps
      positive bases to positive values); so the sampling branch always has a
      positive total and (by `RollLandsInBucket`) its pick is well defined. */
  lemma PathValuesPositive(s: AcoStrategy, node: Node, ph: Pheromones, tabu: set<Node>,
                           goal: Vec2, sp: Space)
    requires PositivePheromones(ph) && s.initPheromone > 0.0 && s.elicitationConstant > -1.0
    ensures forall i :: 0 <= i < 8 ==> PathValues(s, node, ph, tabu, goal, sp)[i] > 0.0
    ensures Sum(PathValues(s, node, ph, tabu, goal, sp)) > 0.0
  {
    var v := PathValues(s, node, ph, tabu, goal, sp);
    var next := NextNodeList(node);
    forall i | 0 <= i < 8
      ensures v[i] > 0.0
    {
      var line := Line(node, next[i]);
      assert v[i] == GetPathValue(s, line, ph, tabu, goal, sp);
      if line.to !in tabu && NodeHasSight(line.from, line.to, sp) {
        HeuristicPrefersNearer(s, line.to, line.to, goal, sp);
        var a := sp.powf(PheromoneOf(ph, line, s.initPheromone), s.alpha);
        var b := sp.powf(GetHeuristic(s, line.to, goal, sp), s.beta);
        assert a > 0.0 && b > 0.0;
        MulLess(0.0, a, b);
      }
    }
    SumPositive(v);
  }

  lemma {:induction false} PathLinesMembers(p: seq<Node>)
    ensures forall l :: l in PathLines(p) ==>
      exists b :: 0 <= b < |p| - 1 && Line(p[b], p[b + 1]) == l
    decreases |p|
  {
    if |p| >= 2 {
      PathLinesMembers(p[1..]);
      forall l | l in PathLines(p)
        ensures exists b :: 0 <= b < |p| - 1 && Line(p[b], p[b + 1]) == l
      {
        if l != Line(p[0], p[1]) {
          assert l in PathLines(p[1..]);
          var b :| 0 <= b < |p[1..]| - 1 && Line(p[1..][b], p[1..][b + 1]) == l;
          assert Line(p[b + 1], p[b + 2]) == l;
        }
      }
    }
  }

  // ---------------------------------------------------------------------
  // Ants

  function Last(p: seq<Node>): Node
    requires |p| > 0
  {
    p[|p| - 1]
  }

  /** The set of nodes on a path. */
  function Nodes(p: seq<Node>): set<Node>
  {
    set n | n in p
  }

  /** The world length of one step, `Vec2::distance` between node centres. */
  function Step(a: Node, b: Node, sp: Space): (d: real)
    ensures d >= 0.0
    ensures d == 0.0 <==> a == b
  {
    sp.distance(NodeToWorldPos(a, sp), NodeToWorldPos(b, sp))
  }

  /** The length an ant accumulates along p: the step lengths added in the
      order they were walked. */
  function PathLength(p: seq<Node>, sp: Space): (d: real)
    ensures d >= 0.0
  {
    if |p| < 2 then 0.0 else PathLength(p[..|p| - 1], sp) + Step(p[|p| - 2], p[|p| - 1], sp)
  }

  /** What the bookkeeping of one ant (its entries in `ants_cur_path`,
      `tabu` and `ants_path_len`) always satisfies: the path starts at the
      start node, moves by king steps, touches the goal at most at its end,
      the tabu set is the set of its nodes and the length is its length. */
  ghost predicate AntInv(path: seq<Node>, tabu: set<Node>, len: real, start: Node, goal: Node, sp: Space)
  {
    |path| > 0 && path[0] == start &&
    (forall i :: 0 <= i < |path| - 1 ==> Adjacent(path[i], path[i + 1])) &&
    (forall i :: 0 <= i < |path| - 1 ==> path[i] != goal) &&
    tabu == Nodes(path) &&
    len == PathLength(path, sp)
  }

  /** How one round changes one ant: an ant at the goal stays as it is; any
      other ant appends one neighbour, adds it to its tabu set and adds the
      step's length. */
  ghost predicate RoundStep(p: seq<Node>, t: set<Node>, l: real,
                            p': seq<Node>, t': set<Node>, l': real, goal: Node, sp: Space)
  {
    |p| > 0 && |p'| > 0 &&
    (Last(p) == goal ==> p' == p && t' == t && l' == l) &&
    (Last(p) != goal ==>
       |p'| == |p| + 1 && p'[..|p|] == p && Adjacent(Last(p), Last(p')) &&
       t' == t + {Last(p')} && l' == l + Step(Last(p), Last(p'), sp))
  }

  /** The line an ant walked in a round, if it moved. */
  function StepLine(p: seq<Node>, p': seq<Node>): set<Line>
  {
    if 0 < |p| < |p'| then {Line(Last(p), p'[|p|])} else {}
  }

  /** The lines the first n ants walked in a round. */
  function RoundLines(before: seq<seq<Node>>, after: seq<seq<Node>>, n: nat): set<Line>
    requires n <= |before| && n <= |after|
  {
    if n == 0 then {}
    else RoundLines(before, after, n - 1) + StepLine(before[n - 1], after[n - 1])
  }

  /** Only the first n entries matter. */
  lemma {:induction false} RoundLinesPrefix(before: seq<seq<Node>>, after: seq<seq<Node>>,
                                            after': seq<seq<Node>>, n: nat)
    requires n <= |before| && n <= |after| && n <= |after'|
    requires forall a :: 0 <= a < n ==> after[a] == after'[a]
    ensures RoundLines(before, after, n) == RoundLines(before, after', n)
  {
    if n > 0 {
      RoundLinesPrefix(before, after, after', n - 1);
    }
  }

  lemma RoundLinesSnoc(before: seq<seq<Node>>, after: seq<seq<Node>>, i: nat, p: seq<Node>)
    requires |before| == |after| && i < |before|
    ensures RoundLines(before, after[i := p], i + 1)
      == RoundLines(before, after, i) + StepLine(before[i], p)
  {
    RoundLinesPrefix(before, after, after[i := p], i);
  }

  /** One ant's turn as seen by the shared state, from levels ph and draw
      index k to ph' and k': an ant at the goal changes neither; any other
      ant makes the `NextChoice` from ph with the draws at k, and the line
      it walked gets the local rule with its new length l'. */
  ghost predicate AntMove(s: AcoStrategy, goalNode: Node, goal: Vec2, sp: Space, rng: nat -> real,
                          p: seq<Node>, t: set<Node>, p': seq<Node>, l': real,
                          ph: Pheromones, k: nat, ph': Pheromones, k': nat)
  {
    |p| > 0 && |p'| > 0 && l' >= 0.0 &&
    (Last(p) == goalNode ==> ph' == ph && k' == k) &&
    (Last(p) != goalNode ==>
       NextChoice(s, Last(p), ph, t, goal, sp, rng, k, Last(p'), k') &&
       ph' == UpdateLine(ph, Line(Last(p), Last(p')), s.evaporationCoefficient,
                         s.depositConstant, l', s.initPheromone))
  }

  /** One iteration of the inner ant loop of `path_finding`: an ant at the
      goal is skipped; any other ant chooses a neighbour, extends its path,
      tabu set and length, and applies the local pheromone rule to the line
      it walked with its new length. */
  method AntStep(s: AcoStrategy, ghost start: Node, goalNode: Node, goal: Vec2, sp: Space,
                 rng: nat -> real, k: nat, ph: Pheromones,
                 path: seq<Node>, tabu: set<Node>, len: real)
    returns (ph': Pheromones, path': seq<Node>, tabu': set<Node>, len': real, k': nat)
    requires AntInv(path, tabu, len, start, goalNode, sp)
    requires SoundParameters(s) && PositivePheromones(ph)
    ensures AntInv(path', tabu', len', start, goalNode, sp)
    ensures PositivePheromones(ph')
    ensures RoundStep(path, tabu, len, path', tabu', len', goalNode, sp)
    ensures AntMove(s, goalNode, goal, sp, rng, path, tabu, path', len', ph, k, ph', k')
    ensures Touches(ph, ph', StepLine(path, path'))
  {
    var cur := path[|path| - 1];
    if cur == goalNode {
      return ph, path, tabu, len, k;
    }
    PathValuesPositive(s, cur, ph, tabu, goal, sp);
    var next;
    next, k' := CalculateNextNode(s, cur, ph, tabu, goal, sp, rng, k);
    var line := Line(cur, next);
    len' := len + Step(cur, next, sp);
    path' := path + [next];
    tabu' := tabu + {next};
    ph' := UpdateLine(ph, line, s.evaporationCoefficient, s.depositConstant, len', s.initPheromone);
    UpdateLineKeepsPositive(ph, line, s.evaporationCoefficient, s.depositConstant, len', s.initPheromone);
    AntExtends(path, tabu, len, next, start, goalNode, sp);
  }

  /** Appending a neighbour to an ant that has not reached the goal keeps
      its bookkeeping consistent and is the step `RoundStep` describes. */
  lemma AntExtends(path: seq<Node>, tabu: set<Node>, len: real, next: Node,
                   start: Node, goalNode: Node, sp: Space)
    requires AntInv(path, tabu, len, start, goalNode, sp)
    requires Last(path) != goalNode && Adjacent(Last(path), next)
    ensures AntInv(path + [next], tabu + {next}, len + Step(Last(path), next, sp), start, goalNode, sp)
    ensures RoundStep(path, tabu, len, path + [next], tabu + {next}, len + Step(Last(path), next, sp),
                      goalNode, sp)
  {
    var path' := path + [next];
    assert path'[..|path|] == path;
    assert Nodes(path') == Nodes(path) + {next};
  }

  /** Every ant's bookkeeping satisfies `AntInv`. */
  ghost predicate AllAnts(paths: seq<seq<Node>>, tabus: seq<set<Node>>, lens: seq<real>,
                          start: Node, goalNode: Node, sp: Space)
  {
    |paths| == |tabus| == |lens| &&
    forall a :: 0 <= a < |paths| ==> AntInv(paths[a], tabus[a], lens[a], start, goalNode, sp)
  }

  /** Part way through a round: the first n ants have taken their step
      (before to after), the rest are untouched. */
  ghost predicate StepsDone(paths: seq<seq<Node>>, tabus: seq<set<Node>>, lens: seq<real>,
                            paths': seq<seq<Node>>, tabus': seq<set<Node>>, lens': seq<real>,
                            n: nat, goalNode: Node, sp: Space)
  {
    |paths'| == |tabus'| == |lens'| == |paths| == |tabus| == |lens| && n <= |paths| &&
    (forall a :: n <= a < |paths| ==>
       paths'[a] == paths[a] && tabus'[a] == tabus[a] && lens'[a] == lens[a]) &&
    (forall a :: 0 <= a < n ==>
       RoundStep(paths[a], tabus[a], lens[a], paths'[a], tabus'[a], lens'[a], goalNode, sp))
  }

  /** Bookkeeping of the ant loop: replacing ant i's entries (paths' to
      paths'') by its step extends the finished prefix of the round by one
      ant. */
  lemma RoundPrefix(paths: seq<seq<Node>>, tabus: seq<set<Node>>, lens: seq<real>,
                    paths': seq<seq<Node>>, tabus': seq<set<Node>>, lens': seq<real>,
                    paths'': seq<seq<Node>>, tabus'': seq<set<Node>>, lens'': seq<real>,
                    i: nat, p: seq<Node>, t: set<Node>, l: real, start: Node, goalNode: Node, sp: Space)
    requires AllAnts(paths', tabus', lens', start, goalNode, sp)
    requires StepsDone(paths, tabus, lens, paths', tabus', lens', i, goalNode, sp) && i < |paths|
    requires paths'' == paths'[i := p] && tabus'' == tabus'[i := t] && lens'' == lens'[i := l]
    requires AntInv(p, t, l, start, goalNode, sp)
    requires RoundStep(paths[i], tabus[i], lens[i], p, t, l, goalNode, sp)
    ensures AllAnts(paths'', tabus'', lens'', start, goalNode, sp)
    ensures StepsDone(paths, tabus, lens, paths'', tabus'', lens'', i + 1, goalNode, sp)
  {
  }

  /** From ph to ph' only the lines ls are added or changed. */
  ghost predicate Touches(ph: Pheromones, ph': Pheromones, ls: set<Line>)
  {
    ph'.Keys == ph.Keys + ls && forall l :: l in ph && l !in ls ==> ph'[l] == ph[l]
  }

  /** Two updates that each touch only their own lines touch only the
      union. */
  lemma FrameCompose(ph: Pheromones, mid: Pheromones, fin: Pheromones, a: set<Line>, b: set<Line>)
    requires Touches(ph, mid, a) && Touches(mid, fin, b)
    ensures Touches(ph, fin, a + b)
  {
  }

  /** The first n ants of a round moved in index order: ant a went from the
      intermediate state (phs[a], ks[a]) to (phs[a + 1], ks[a + 1]). */
  ghost predicate AntsMoved(s: AcoStrategy, goalNode: Node, goal: Vec2, sp: Space, rng: nat -> real,
                            paths: seq<seq<Node>>, tabus: seq<set<Node>>,
                            paths': seq<seq<Node>>, lens': seq<real>,
                            phs: seq<Pheromones>, ks: seq<nat>, n: nat)
  {
    n <= |paths| && |tabus| == |paths'| == |lens'| == |paths| && |phs| == |ks| == n + 1 &&
    forall a :: 0 <= a < n ==>
      AntMove(s, goalNode, goal, sp, rng, paths[a], tabus[a], paths'[a], lens'[a],
              phs[a], ks[a], phs[a + 1], ks[a + 1])
  }

  /** Recording ant n's move extends the sequence of intermediate states. */
  lemma AntsMovedSnoc(s: AcoStrategy, goalNode: Node, goal: Vec2, sp: Space, rng: nat -> real,
                      paths: seq<seq<Node>>, tabus: seq<set<Node>>,
                      paths': seq<seq<Node>>, lens': seq<real>, paths'': seq<seq<Node>>, lens'': seq<real>,
                      phs: seq<Pheromones>, ks: seq<nat>, n: nat,
                      p: seq<Node>, l: real, ph': Pheromones, k': nat)
    requires AntsMoved(s, goalNode, goal, sp, rng, paths, tabus, paths', lens', phs, ks, n)
    requires n < |paths| && paths'' == paths'[n := p] && lens'' == lens'[n := l]
    requires AntMove(s, goalNode, goal, sp, rng, paths[n], tabus[n], p, l, phs[n], ks[n], ph', k')
    ensures AntsMoved(s, goalNode, goal, sp, rng, paths, tabus, paths'', lens'',
                      phs + [ph'], ks + [k'], n + 1)
  {
  }

  /** The state of a round after its first i ants: from (ph, paths, tabus,
      lens, k) to (ph', paths', tabus', lens', k') through the intermediate
      levels and draw indices phs and ks. */
  ghost predicate RoundSoFar(s: AcoStrategy, start: Node, goalNode: Node, goal: Vec2, sp: Space,
                             rng: nat -> real, ph: Pheromones, k: nat,
                             paths: seq<seq<Node>>, tabus: seq<set<Node>>, lens: seq<real>,
                             ph': Pheromones, k': nat,
                             paths': seq<seq<Node>>, tabus': seq<set<Node>>, lens': seq<real>,
                             phs: seq<Pheromones>, ks: seq<nat>, i: nat)
  {
    AllAnts(paths', tabus', lens', start, goalNode, sp) &&
    PositivePheromones(ph') &&
    AntsMoved(s, goalNode, goal, sp, rng, paths, tabus, paths', lens', phs, ks, i) &&
    phs[0] == ph && ks[0] == k && phs[i] == ph' && ks[i] == k' &&
    StepsDone(paths, tabus, lens, paths', tabus', lens', i, goalNode, sp) &&
    Touches(ph, ph', RoundLines(paths, paths', i))
  }

  /** Ant i's `AntStep` (from ph' and k' to ph'' and k'', its entries to p,
      t and l) extends the round by one ant. */
  lemma AntTurn(s: AcoStrategy, start: Node, goalNode: Node, goal: Vec2, sp: Space,
                rng: nat -> real, ph: Pheromones, k: nat,
                paths: seq<seq<Node>>, tabus: seq<set<Node>>, lens: seq<real>,
                ph': Pheromones, k': nat,
                paths': seq<seq<Node>>, tabus': seq<set<Node>>, lens': seq<real>,
                phs: seq<Pheromones>, ks: seq<nat>, i: nat,
                ph'': Pheromones, k'': nat, p: seq<Node>, t: set<Node>, l: real)
    requires RoundSoFar(s, start, goalNode, goal, sp, rng, ph, k, paths, tabus, lens,
                        ph', k', paths', tabus', lens', phs, ks, i)
    requires i < |paths|
    requires AntInv(p, t, l, start, goalNode, sp) && PositivePheromones(ph'')
    requires RoundStep(paths'[i], tabus'[i], lens'[i], p, t, l, goalNode, sp)
    requires AntMove(s, goalNode, goal, sp, rng, paths'[i], tabus'[i], p, l, ph', k', ph'', k'')
    requires Touches(ph', ph'', StepLine(paths'[i], p))
    ensures RoundSoFar(s, start, goalNode, goal, sp, rng, ph, k, paths, tabus, lens,
                       ph'', k'', paths'[i := p], tabus'[i := t], lens'[i := l],
                       phs + [ph''], ks + [k''], i + 1)
  {
    RoundLinesSnoc(paths, paths', i, p);
    FrameCompose(ph, ph', ph'', RoundLines(paths, paths', i), StepLine(paths[i], p));
    RoundPrefix(paths, tabus, lens, paths', tabus', lens', paths'[i := p], tabus'[i := t], lens'[i := l],
                i, p, t, l, start, goalNode, sp);
    AntsMovedSnoc(s, goalNode, goal, sp, rng, paths, tabus, paths', lens', paths'[i := p], lens'[i := l],
                  phs, ks, i, p, l, ph'', k'');
  }

  /** One round: every ant takes `AntStep` in index order, each seeing the
      pheromones and draws left by the ants before it (phs and ks name
      those intermediate states). Only walked lines change. */
  method RunRound(s: AcoStrategy, ghost start: Node, goalNode: Node, goal: Vec2, sp: Space,
                  rng: nat -> real, k: nat, ph: Pheromones,
                  paths: seq<seq<Node>>, tabus: seq<set<Node>>, lens: seq<real>)
    returns (ph': Pheromones, paths': seq<seq<Node>>, tabus': seq<set<Node>>, lens': seq<real>, k': nat,
             ghost phs: seq<Pheromones>, ghost ks: seq<nat>)
    requires |paths| == |tabus| == |lens|
    requires forall a :: 0 <= a < |paths| ==> AntInv(paths[a], tabus[a], lens[a], start, goalNode, sp)
    requires SoundParameters(s) && PositivePheromones(ph)
    ensures PositivePheromones(ph')
    ensures |phs| == |ks| == |paths| + 1
    ensures phs[0] == ph && ks[0] == k && phs[|paths|] == ph' && ks[|paths|] == k'
    ensures AntsMoved(s, goalNode, goal, sp, rng, paths, tabus, paths', lens', phs, ks, |paths|)
    ensures |paths'| == |tabus'| == |lens'| == |paths|
    ensures forall a :: 0 <= a < |paths| ==> AntInv(paths'[a], tabus'[a], lens'[a], start, goalNode, sp)
    ensures forall a :: 0 <= a < |paths| ==>
      RoundStep(paths[a], tabus[a], lens[a], paths'[a], tabus'[a], lens'[a], goalNode, sp)
    ensures ph'.Keys == ph.Keys + RoundLines(paths, paths', |paths|)
    ensures forall l :: l in ph && l !in RoundLines(paths, paths', |paths|) ==> ph'[l] == ph[l]
  {
    ph', paths', tabus', lens', k' := ph, paths, tabus, lens, k;
    phs, ks := [ph], [k];
    for i := 0 to |paths|
      invariant RoundSoFar(s, start, goalNode, goal, sp, rng, ph, k, paths, tabus, lens,
                           ph', k', paths', tabus', lens', phs, ks, i)
    {
      var p, t, l, ph'', k'';
      ph'', p, t, l, k'' := AntStep(s, start, goalNode, goal, sp, rng, k', ph', paths'[i], tabus'[i], lens'[i]);
      AntTurn(s, start, goalNode, goal, sp, rng, ph, k, paths, tabus, lens,
              ph', k', paths', tabus', lens', phs, ks, i, ph'', k'', p, t, l);
      phs, ks := phs + [ph''], ks + [k''];
      ph', k' := ph'', k'';
      paths', tabus', lens' := paths'[i := p], tabus'[i := t], lens'[i := l];
    }
  }

  /** `best_path` selection: the first ant whose length is strictly larger
      than every earlier one and at least every later one. */
  ghost predicate IsFirstLongest(lens: seq<real>, b: nat)
  {
    b < |lens| &&
    (forall j :: 0 <= j < |lens| ==> lens[j] <= lens[b]) &&
    (forall j :: 0 <= j < b ==> lens[j] < lens[b])
  }

  method SelectBest(lens: seq<real>) returns (b: nat)
    requires |lens| > 0
    ensures IsFirstLongest(lens, b)
  {
    b := 0;
    var bestLen := lens[0];
    for a := 1 to |lens|
      invariant b < a && bestLen == lens[b]
      invariant forall j :: 0 <= j < a ==> lens[j] <= bestLen
      invariant forall j :: 0 <= j < b ==> lens[j] < bestLen
    {
      if lens[a] > bestLen {
        b := a;
        bestLen := lens[a];
      }
    }
  }

  /** The global update over `best_path.windows(2)`. */
  method DepositPath(gph: Pheromones, best: seq<Node>, rho: real, q: real, len: real, init: real)
    returns (gph': Pheromones)
    requires len >= 0.0
    ensures gph' == DepositAlong(gph, best, rho, q, len, init)
  {
    gph' := gph;
    if |best| < 2 {
      return;
    }
    for i := 0 to |best| - 1
      invariant DepositAlong(gph', best[i..], rho, q, len, init) == DepositAlong(gph, best, rho, q, len, init)
    {
      assert best[i..][1..] == best[i + 1..];
      gph' := UpdateLine(gph', Line(best[i], best[i + 1]), rho, q, len, init);
    }
  }

  /** The returned path: each node's world centre. */
  function WorldPath(p: seq<Node>, sp: Space): (w: seq<Vec2>)
    ensures |w| == |p|
    ensures forall i :: 0 <= i < |p| ==> w[i] == NodeToWorldPos(p[i], sp)
  {
    seq(|p|, i requires 0 <= i < |p| => NodeToWorldPos(p[i], sp))
  }

  /** The recorded length of every ant. */
  function Lengths(paths: seq<seq<Node>>, sp: Space): (ls: seq<real>)
    ensures |ls| == |paths|
    ensures forall a :: 0 <= a < |paths| ==> ls[a] == PathLength(paths[a], sp)
  {
    seq(|paths|, a requires 0 <= a < |paths| => PathLength(paths[a], sp))
  }

  /** `path_finding`. Both ends must be present (the code unwraps them), and
      a run with groups needs ants (the code unwraps the first ant). The
      last group's chosen ant is returned; it need not have reached the
      goal: a path that does not end at the goal has walked every round.
      `ants` and `chosen` name the last group's paths and its chosen ant. */
  method PathFinding(s: AcoStrategy, problem: Problem, sp: Space, rng: nat -> real)
    returns (r: Option<seq<Vec2>>, ghost ants: seq<seq<Node>>, ghost chosen: nat)
    requires problem.start.Some? && problem.goal.Some?
    requires s.numberAntGroup > 0 ==> s.numberPerAntGroup > 0
    requires SoundParameters(s)
    ensures r.None? <==> s.numberAntGroup == 0
    ensures r.Some? ==>
      var startNode := WorldToNodePos(problem.start.value, sp);
      var goalNode := WorldToNodePos(problem.goal.value, sp);
      |ants| == s.numberPerAntGroup &&
      IsFirstLongest(Lengths(ants, sp), chosen) &&
      r.value == WorldPath(ants[chosen], sp) &&
      (forall a :: 0 <= a < |ants| ==>
         AntInv(ants[a], Nodes(ants[a]), PathLength(ants[a], sp), startNode, goalNode, sp) &&
         |ants[a]| <= s.maxAntGroupTry + 1 &&
         (Last(ants[a]) != goalNode ==> |ants[a]| == s.maxAntGroupTry + 1))
  {
    var start := problem.start.value;
    var goal := problem.goal.value;
    var startNode := WorldToNodePos(start, sp);
    var goalNode := WorldToNodePos(goal, sp);
    var n := s.numberPerAntGroup;
    var k := 0;
    ants, chosen := [], 0;

    var globalPheromones: Pheromones := map[];
    for group := 0 to s.numberAntGroup
      invariant s.numberAntGroup > 0 ==> group < s.numberAntGroup
      invariant PositivePheromones(globalPheromones)
    {
      var pheromones := globalPheromones;
      var tabu := seq(n, _ => {startNode});
      var paths := seq(n, _ => [startNode]);
      var lens := seq(n, _ => 0.0);
      assert forall a :: 0 <= a < n ==> Nodes(paths[a]) == {startNode};

      for round := 0 to s.maxAntGroupTry
        invariant |paths| == |tabu| == |lens| == n
        invariant PositivePheromones(pheromones)
        invariant forall a :: 0 <= a < n ==> AntInv(paths[a], tabu[a], lens[a], startNode, goalNode, sp)
        invariant forall a :: 0 <= a < n ==>
          |paths[a]| <= round + 1 && (Last(paths[a]) != goalNode ==> |paths[a]| == round + 1)
      {
        ghost var phs, ks;
        pheromones, paths, tabu, lens, k, phs, ks := RunRound(s, startNode, goalNode, goal, sp, rng, k,
                                                      pheromones, paths, tabu, lens);
      }

      assert lens == Lengths(paths, sp);
      var b := SelectBest(lens);
      var bestPath := paths[b];
      DepositAlongKeepsPositive(globalPheromones, bestPath, s.globalEvaporationCoefficient,
                                s.globalDepositConstant, lens[b], s.initPheromone);
      globalPheromones := DepositPath(globalPheromones, bestPath, s.globalEvaporationCoefficient,
                                      s.globalDepositConstant, lens[b], s.initPheromone);

      if group == s.numberAntGroup - 1 {
        return Some(WorldPath(bestPath, sp)), paths, b;
      }
    }
    return None, ants, chosen;
  }
}

=== FILE: astar.dfy ===
/** The any-angle best-first search (src/algorithm/solve/a_star.rs).

    Positions are continuous points, keyed by exact equality. From a popped
    point the search probes the eight compass and diagonal directions at a
    fixed step, keeps the best known cost `g` per point with its predecessor,
    and stops as soon as a popped point sees the goal. The path is read back
    along the predecessor links.

    The binary heap is a sequence from which a maximal element (in the
    node order) is removed; the number of pops is bounded by `fuel`. */
module AnyAngle {
  import opened Geometry
  import opened Sight

  /** A queue entry: position, the point it was reached from, cost so far
      and estimated cost to go. */
  datatype SearchNode = SearchNode(pos: Vec2, pre: Option<Vec2>, g: real, h: real)
  {
    function F(): real { g + h }
  }

  datatype Ordering = Less | Equal | Greater

  /** `partial_cmp` on reals (there is no NaN to make it fail). */
  function RealCmp(x: real, y: real): Ordering
  {
    if x < y then Less else if x > y then Greater else Equal
  }

  /** `Node::cmp`: the f values compared the other way round, then h
      compared directly. The heap pops the greatest node: the smallest f,
      and among equal f the LARGEST h. */
  function Cmp(a: SearchNode, b: SearchNode): (r: Ordering)
    ensures r == Greater <==> a.F() < b.F() || (a.F() == b.F() && a.h > b.h)
    ensures r == Less <==> a.F() > b.F() || (a.F() == b.F() && a.h < b.h)
    ensures r == Equal <==> a.F() == b.F() && a.h == b.h
  {
    var byF := RealCmp(b.F(), a.F());
    if byF != Equal then byF else RealCmp(a.h, b.h)
  }

  /** The order is a total preorder: swapping the arguments reverses it and
      "greater" is transitive. */
  lemma CmpReverse(a: SearchNode, b: SearchNode)
    ensures Cmp(a, b) == Greater <==> Cmp(b, a) == Less
    ensures Cmp(a, b) == Equal <==> Cmp(b, a) == Equal
  {
  }

  lemma CmpTransitive(a: SearchNode, b: SearchNode, c: SearchNode)
    requires Cmp(a, b) == Greater && Cmp(b, c) == Greater
    ensures Cmp(a, c) == Greater
  {
  }

  datatype ProbeDirection = Right | UpRight | Up | UpLeft | Left | DownLeft | Down | DownRight

  /** `ProbeDirection::iter` order. */
  const DIRECTIONS: seq<ProbeDirection> :=
    [Right, UpRight, Up, UpLeft, Left, DownLeft, Down, DownRight]

  function Offset(d: ProbeDirection): (v: Vec2)
    ensures -1.0 <= v.x <= 1.0 && -1.0 <= v.y <= 1.0 && v != Vec2(0.0, 0.0)
  {
    match d
    case Right => Vec2(1.0, 0.0)
    case UpRight => Vec2(1.0, 1.0)
    case Up => Vec2(0.0, 1.0)
    case UpLeft => Vec2(-1.0, 1.0)
    case Left => Vec2(-1.0, 0.0)
    case DownLeft => Vec2(-1.0, -1.0)
    case Down => Vec2(0.0, -1.0)
    case DownRight => Vec2(1.0, -1.0)
  }

  /** The eight probe directions have eight different offsets. */
  lemma DirectionsDistinct()
    ensures |DIRECTIONS| == 8
    ensures forall d: ProbeDirection :: d in DIRECTIONS
    ensures forall i, j :: 0 <= i < j < 8 ==> Offset(DIRECTIONS[i]) != Offset(DIRECTIONS[j])
  {
    forall d: ProbeDirection
      ensures d in DIRECTIONS
    {
      match d
      case Right => assert DIRECTIONS[0] == d;
      case UpRight => assert DIRECTIONS[1] == d;
      case Up => assert DIRECTIONS[2] == d;
      case UpLeft => assert DIRECTIONS[3] == d;
      case Left => assert DIRECTIONS[4] == d;
      case DownLeft => assert DIRECTIONS[5] == d;
      case Down => assert DIRECTIONS[6] == d;
      case DownRight => assert DIRECTIONS[7] == d;
    }
  }

  /** The search's only parameter besides the grid. */
  datatype AStarStrategy = AStarStrategy(stepSize: real)

  const DEFAULT_STEP_SIZE: real := 20.0

  /** `AStarStrategy::new`: the default step of 20 units, so every probe
      moves away from its root. */
  function New(): (r: AStarStrategy)
    ensures r.stepSize == DEFAULT_STEP_SIZE && r.stepSize > 0.0
  {
    AStarStrategy(DEFAULT_STEP_SIZE)
  }

  /** `heuristic`: the straight-line distance. */
  function Heuristic(sp: Space, a: Vec2, b: Vec2): (r: real)
    ensures r >= 0.0 && (r == 0.0 <==> a == b)
  {
    sp.distance(a, b)
  }

  /** `get_new_pos`: one step from root along the direction, offered only
      when root sees it. */
  function GetNewPos(s: AStarStrategy, sp: Space, root: Vec2, d: ProbeDirection): (r: Option<Vec2>)
    ensures r.Some? <==> HasSight(sp, root, root.Plus(Offset(d).Scale(s.stepSize)))
    ensures r.Some? ==> r.value == root.Plus(Offset(d).Scale(s.stepSize))
  {
    var newPos := root.Plus(Offset(d).Scale(s.stepSize));
    if HasSight(sp, root, newPos) then Some(newPos) else None
  }

  /** `queue.pop()`: remove a greatest node. Among equally ranked nodes the
      earliest is taken. */
  method PopBest(queue: seq<SearchNode>) returns (cur: SearchNode, rest: seq<SearchNode>)
    requires |queue| > 0
    ensures cur in queue
    ensures multiset(rest) + multiset{cur} == multiset(queue)
    ensures |rest| == |queue| - 1
    ensures forall e :: e in rest ==> e in queue
    ensures forall e :: e in queue ==> Cmp(e, cur) != Greater
  {
    var b := 0;
    for i := 1 to |queue|
      invariant b < i
      invariant forall j :: 0 <= j < i ==> Cmp(queue[j], queue[b]) != Greater
    {
      if Cmp(queue[i], queue[b]) == Greater {
        forall j | 0 <= j < i
          ensures Cmp(queue[j], queue[i]) != Greater
        {
          if Cmp(queue[j], queue[i]) == Greater {
            CmpTransitive(queue[j], queue[i], queue[b]);
          }
        }
        b := i;
      }
    }
    cur := queue[b];
    rest := queue[..b] + queue[b + 1..];
    assert queue == queue[..b] + [cur] + queue[b + 1..];
    forall e | e in rest
      ensures e in queue
    {
      assert e in multiset(rest);
    }
  }

  /** What holds of the search state between pops:
      - the start is recorded with cost 0, every cost is non-negative;
      - every queued node is recorded, with a cost no larger than its own;
      - each predecessor link joins two recorded points, sees its target,
        and strictly lowers the cost;
      - every recorded point other than the start has a predecessor;
      - unless the start is the goal, the goal is never recorded. */
  ghost predicate SearchInv(sp: Space, start: Vec2, goal: Vec2, queue: seq<SearchNode>,
                            gc: map<Vec2, real>, preds: map<Vec2, Vec2>)
  {
    start in gc && gc[start] == 0.0 &&
    (forall k :: k in gc ==> gc[k] >= 0.0) &&
    (forall e :: e in queue ==> e.pos in gc && gc[e.pos] <= e.g) &&
    (forall k :: k in preds ==>
       k in gc && preds[k] in gc && gc[preds[k]] < gc[k] && HasSight(sp, preds[k], k)) &&
    (forall k :: k in gc && k != start ==> k in preds) &&
    (start != goal ==> goal !in gc)
  }

  /** Node n was pushed during this expansion (queue grew to queue'). */
  ghost predicate Pushed(queue: seq<SearchNode>, queue': seq<SearchNode>, n: SearchNode)
  {
    exists j :: |queue| <= j < |queue'| && queue'[j] == n
  }

  /** The entry the probe loop pushes for successor p of cur. */
  function Successor(sp: Space, cur: SearchNode, goal: Vec2, p: Vec2): SearchNode
  {
    SearchNode(p, Some(cur.pos), cur.g + sp.distance(p, cur.pos), Heuristic(sp, p, goal))
  }

  /** Successor p has been relaxed: its recorded cost is at most the cost
      through cur, and if that cost beat the cost recorded before the
      expansion (or there was none), the successor was pushed. */
  ghost predicate Relaxed(sp: Space, cur: SearchNode, goal: Vec2, gc: map<Vec2, real>, gc': map<Vec2, real>,
                          queue: seq<SearchNode>, queue': seq<SearchNode>, p: Vec2)
  {
    var g := cur.g + sp.distance(p, cur.pos);
    p in gc' && gc'[p] <= g &&
    ((p !in gc || g < gc[p]) ==> Pushed(queue, queue', Successor(sp, cur, goal, p)))
  }

  lemma PushedExtends(queue: seq<SearchNode>, q1: seq<SearchNode>, q2: seq<SearchNode>, n: SearchNode)
    requires |queue| <= |q1| <= |q2| && q2[..|q1|] == q1
    requires Pushed(queue, q1, n)
    ensures Pushed(queue, q2, n)
  {
    var j :| |queue| <= j < |q1| && q1[j] == n;
    assert q2[j] == q1[j];
  }

  /** The first n probe directions have been relaxed. */
  ghost predicate RelaxedUpTo(s: AStarStrategy, sp: Space, cur: SearchNode, goal: Vec2,
                              gc: map<Vec2, real>, gc': map<Vec2, real>,
                              queue: seq<SearchNode>, queue': seq<SearchNode>, n: nat)
  {
    n <= 8 &&
    forall j :: 0 <= j < n && GetNewPos(s, sp, cur.pos, DIRECTIONS[j]).Some? ==>
      Relaxed(sp, cur, goal, gc, gc', queue, queue', GetNewPos(s, sp, cur.pos, DIRECTIONS[j]).value)
  }

  /** Recorded costs never increase. */
  ghost predicate CostsNoHigher(gc: map<Vec2, real>, gc': map<Vec2, real>)
  {
    gc.Keys <= gc'.Keys && forall k :: k in gc ==> gc'[k] <= gc[k]
  }

  /** p is the position one of the eight probes from `from` offers. */
  ghost predicate IsProbe(s: AStarStrategy, sp: Space, from: Vec2, p: Vec2)
  {
    exists i :: 0 <= i < 8 && GetNewPos(s, sp, from, DIRECTIONS[i]) == Some(p)
  }

  /** A cost is written only on strict improvement of a probe position, as
      the cost through cur, together with cur as predecessor and a pushed
      queue entry. */
  ghost predicate WrittenOnImprovement(s: AStarStrategy, sp: Space, cur: SearchNode, goal: Vec2,
                                       gc: map<Vec2, real>, gc': map<Vec2, real>, preds': map<Vec2, Vec2>,
                                       queue: seq<SearchNode>, queue': seq<SearchNode>)
  {
    forall k :: k in gc' && (k !in gc || gc'[k] != gc[k]) ==>
      IsProbe(s, sp, cur.pos, k) &&
      (k !in gc || gc'[k] < gc[k]) && gc'[k] == cur.g + sp.distance(k, cur.pos) &&
      k in preds' && preds'[k] == cur.pos && HasSight(sp, cur.pos, k) &&
      Pushed(queue, queue', Successor(sp, cur, goal, k))
  }

  /** A predecessor is written only together with an improved cost. */
  ghost predicate PredsOnImprovement(gc: map<Vec2, real>, gc': map<Vec2, real>,
                                     preds: map<Vec2, Vec2>, preds': map<Vec2, Vec2>)
  {
    preds.Keys <= preds'.Keys &&
    forall k :: k in preds' && (k !in preds || preds'[k] != preds[k]) ==>
      k in gc' && (k !in gc || gc'[k] < gc[k])
  }

  /** The queue only grows, and what is pushed are probe positions of cur
      it sees, with their cost through cur, each an improvement. */
  ghost predicate PushedImproved(s: AStarStrategy, sp: Space, cur: SearchNode, goal: Vec2,
                                 gc: map<Vec2, real>, gc': map<Vec2, real>,
                                 queue: seq<SearchNode>, queue': seq<SearchNode>)
  {
    |queue| <= |queue'| && queue'[..|queue|] == queue &&
    forall j :: |queue| <= j < |queue'| ==>
      var e := queue'[j];
      IsProbe(s, sp, cur.pos, e.pos) &&
      e.pre == Some(cur.pos) && e.g == cur.g + sp.distance(e.pos, cur.pos) &&
      e.h == Heuristic(sp, e.pos, goal) && HasSight(sp, cur.pos, e.pos) &&
      e.pos in gc' && gc'[e.pos] <= e.g && (e.pos !in gc || e.g < gc[e.pos])
  }

  /** A probe that writes nothing (no sight, or no improvement on the
      current record) still counts as relaxed. */
  lemma RelaxSkip(s: AStarStrategy, sp: Space, cur: SearchNode, goal: Vec2,
                  gc: map<Vec2, real>, gc': map<Vec2, real>, preds': map<Vec2, Vec2>,
                  queue: seq<SearchNode>, queue': seq<SearchNode>, i: nat)
    requires i < 8 && RelaxedUpTo(s, sp, cur, goal, gc, gc', queue, queue', i)
    requires WrittenOnImprovement(s, sp, cur, goal, gc, gc', preds', queue, queue')
    requires CostsNoHigher(gc, gc')
    requires var next := GetNewPos(s, sp, cur.pos, DIRECTIONS[i]);
      next.None? ||
      (next.value in gc' && gc'[next.value] <= cur.g + sp.distance(next.value, cur.pos))
    ensures RelaxedUpTo(s, sp, cur, goal, gc, gc', queue, queue', i + 1)
  {
    var next := GetNewPos(s, sp, cur.pos, DIRECTIONS[i]);
    if next.Some? {
      var p := next.value;
      var g := cur.g + sp.distance(p, cur.pos);
      if p !in gc || g < gc[p] {
        assert p !in gc || gc'[p] != gc[p];
      }
      assert Relaxed(sp, cur, goal, gc, gc', queue, queue', p);
    }
  }

  /** A probe that improves successor p writes its cost, predecessor and
      queue entry; RelaxPush* show that this keeps each part of the loop
      state. */
  lemma RelaxPushRelaxed(s: AStarStrategy, sp: Space, cur: SearchNode, goal: Vec2,
                  gc: map<Vec2, real>, preds: map<Vec2, Vec2>, queue: seq<SearchNode>,
                  gc': map<Vec2, real>, preds': map<Vec2, Vec2>, queue': seq<SearchNode>,
                  gc'': map<Vec2, real>, preds'': map<Vec2, Vec2>, queue'': seq<SearchNode>,
                  i: nat, p: Vec2)
    requires i < 8 && GetNewPos(s, sp, cur.pos, DIRECTIONS[i]) == Some(p)
    requires p !in gc' || cur.g + sp.distance(p, cur.pos) < gc'[p]
    requires queue'' == queue' + [Successor(sp, cur, goal, p)]
    requires gc'' == gc'[p := cur.g + sp.distance(p, cur.pos)]
    requires preds'' == preds'[p := cur.pos]
    requires RelaxedUpTo(s, sp, cur, goal, gc, gc', queue, queue', i)
    requires |queue| <= |queue'|
    ensures RelaxedUpTo(s, sp, cur, goal, gc, gc'', queue, queue'', i + 1)
  {
    assert queue''[|queue'|] == Successor(sp, cur, goal, p);
    assert Pushed(queue, queue'', Successor(sp, cur, goal, p));
    forall j | 0 <= j < i + 1 && GetNewPos(s, sp, cur.pos, DIRECTIONS[j]).Some?
      ensures Relaxed(sp, cur, goal, gc, gc'', queue, queue'', GetNewPos(s, sp, cur.pos, DIRECTIONS[j]).value)
    {
      var q := GetNewPos(s, sp, cur.pos, DIRECTIONS[j]).value;
      if q != p {
        assert Relaxed(sp, cur, goal, gc, gc', queue, queue', q);
        if Pushed(queue, queue', Successor(sp, cur, goal, q)) {
          PushedExtends(queue, queue', queue'', Successor(sp, cur, goal, q));
        }
      }
    }
  }

  lemma RelaxPushWritten(s: AStarStrategy, sp: Space, cur: SearchNode, goal: Vec2,
                  gc: map<Vec2, real>, preds: map<Vec2, Vec2>, queue: seq<SearchNode>,
                  gc': map<Vec2, real>, preds': map<Vec2, Vec2>, queue': seq<SearchNode>,
                  gc'': map<Vec2, real>, preds'': map<Vec2, Vec2>, queue'': seq<SearchNode>,
                  i: nat, p: Vec2)
    requires i < 8 && GetNewPos(s, sp, cur.pos, DIRECTIONS[i]) == Some(p)
    requires p !in gc' || cur.g + sp.distance(p, cur.pos) < gc'[p]
    requires queue'' == queue' + [Successor(sp, cur, goal, p)]
    requires gc'' == gc'[p := cur.g + sp.distance(p, cur.pos)]
    requires preds'' == preds'[p := cur.pos]
    requires HasSight(sp, cur.pos, p)
    requires CostsNoHigher(gc, gc')
    requires WrittenOnImprovement(s, sp, cur, goal, gc, gc', preds', queue, queue')
    requires |queue| <= |queue'|
    ensures CostsNoHigher(gc, gc'')
    ensures WrittenOnImprovement(s, sp, cur, goal, gc, gc'', preds'', queue, queue'')
  {
    assert queue''[|queue'|] == Successor(sp, cur, goal, p);
    assert Pushed(queue, queue'', Successor(sp, cur, goal, p));
    forall k | k in gc'' && (k !in gc || gc''[k] != gc[k]) && k != p
      ensures Pushed(queue, queue'', Successor(sp, cur, goal, k))
    {
      PushedExtends(queue, queue', queue'', Successor(sp, cur, goal, k));
    }
  }

  lemma RelaxPushQueue(s: AStarStrategy, sp: Space, cur: SearchNode, goal: Vec2,
                  gc: map<Vec2, real>, preds: map<Vec2, Vec2>, queue: seq<SearchNode>,
                  gc': map<Vec2, real>, preds': map<Vec2, Vec2>, queue': seq<SearchNode>,
                  gc'': map<Vec2, real>, preds'': map<Vec2, Vec2>, queue'': seq<SearchNode>,
                  i: nat, p: Vec2)
    requires i < 8 && GetNewPos(s, sp, cur.pos, DIRECTIONS[i]) == Some(p)
    requires p !in gc' || cur.g + sp.distance(p, cur.pos) < gc'[p]
    requires queue'' == queue' + [Successor(sp, cur, goal, p)]
    requires gc'' == gc'[p := cur.g + sp.distance(p, cur.pos)]
    requires preds'' == preds'[p := cur.pos]
    requires HasSight(sp, cur.pos, p)
    requires CostsNoHigher(gc, gc')
    requires PredsOnImprovement(gc, gc', preds, preds')
    requires PushedImproved(s, sp, cur, goal, gc, gc', queue, queue')
    ensures PredsOnImprovement(gc, gc'', preds, preds'')
    ensures PushedImproved(s, sp, cur, goal, gc, gc'', queue, queue'')
  {
    assert queue''[..|queue|] == queue'[..|queue|];
  }

  /** The probe loop of `path_finding`. Every visible successor is relaxed:
      its recorded cost ends no higher than the cost through cur, and it is
      pushed when that cost beats the recorded one (or there is none).
      Conversely, a cost or predecessor is written, and a node pushed, only
      for such an improvement, and no cost increases. */
  method Expand(s: AStarStrategy, sp: Space, cur: SearchNode, goal: Vec2,
                gc: map<Vec2, real>, preds: map<Vec2, Vec2>, queue: seq<SearchNode>)
    returns (gc': map<Vec2, real>, preds': map<Vec2, Vec2>, queue': seq<SearchNode>)
    ensures RelaxedUpTo(s, sp, cur, goal, gc, gc', queue, queue', 8)
    ensures CostsNoHigher(gc, gc')
    ensures WrittenOnImprovement(s, sp, cur, goal, gc, gc', preds', queue, queue')
    ensures PredsOnImprovement(gc, gc', preds, preds')
    ensures PushedImproved(s, sp, cur, goal, gc, gc', queue, queue')
  {
    gc', preds', queue' := gc, preds, queue;
    for i := 0 to 8
      invariant RelaxedUpTo(s, sp, cur, goal, gc, gc', queue, queue', i)
      invariant CostsNoHigher(gc, gc')
      invariant WrittenOnImprovement(s, sp, cur, goal, gc, gc', preds', queue, queue')
      invariant PredsOnImprovement(gc, gc', preds, preds')
      invariant PushedImproved(s, sp, cur, goal, gc, gc', queue, queue')
    {
      var next := GetNewPos(s, sp, cur.pos, DIRECTIONS[i]);
      if next.Some? {
        var newPos := next.value;
        var newG := cur.g + sp.distance(newPos, cur.pos);
        var shouldProcess := if newPos in gc' then newG < gc'[newPos] else true;
        if shouldProcess {
          var entry := SearchNode(newPos, Some(cur.pos), newG, Heuristic(sp, newPos, goal));
          RelaxPushRelaxed(s, sp, cur, goal, gc, preds, queue, gc', preds', queue',
                           gc'[newPos := newG], preds'[newPos := cur.pos], queue' + [entry], i, newPos);
          RelaxPushWritten(s, sp, cur, goal, gc, preds, queue, gc', preds', queue',
                           gc'[newPos := newG], preds'[newPos := cur.pos], queue' + [entry], i, newPos);
          RelaxPushQueue(s, sp, cur, goal, gc, preds, queue, gc', preds', queue',
                         gc'[newPos := newG], preds'[newPos := cur.pos], queue' + [entry], i, newPos);
          queue' := queue' + [entry];
          gc' := gc'[newPos := newG];
          preds' := preds'[newPos := cur.pos];
        } else {
          RelaxSkip(s, sp, cur, goal, gc, gc', preds', queue, queue', i);
        }
      } else {
        RelaxSkip(s, sp, cur, goal, gc, gc', preds', queue, queue', i);
      }
    }
  }

  /** Expanding a popped, recorded, non-stale node that does not see the
      goal keeps the search invariant. */
  lemma ExpandKeepsInv(s: AStarStrategy, sp: Space, start: Vec2, goal: Vec2, cur: SearchNode,
                       queue: seq<SearchNode>, gc: map<Vec2, real>, preds: map<Vec2, Vec2>,
                       queue': seq<SearchNode>, gc': map<Vec2, real>, preds': map<Vec2, Vec2>)
    requires SearchInv(sp, start, goal, queue, gc, preds)
    requires cur.pos in gc && gc[cur.pos] <= cur.g
    requires !HasSight(sp, cur.pos, goal)
    requires CostsNoHigher(gc, gc')
    requires WrittenOnImprovement(s, sp, cur, goal, gc, gc', preds', queue, queue')
    requires PredsOnImprovement(gc, gc', preds, preds')
    requires PushedImproved(s, sp, cur, goal, gc, gc', queue, queue')
    ensures SearchInv(sp, start, goal, queue', gc', preds')
  {
    assert gc[start] == 0.0;
    forall e | e in queue'
      ensures e.pos in gc' && gc'[e.pos] <= e.g
    {
      var j :| 0 <= j < |queue'| && queue'[j] == e;
      if j < |queue| {
        assert queue[j] == e;
      }
    }
    forall k | k in preds'
      ensures k in gc' && preds'[k] in gc' && gc'[preds'[k]] < gc'[k] && HasSight(sp, preds'[k], k)
    {
      if k in gc && gc'[k] == gc[k] {
        assert k in preds && preds'[k] == preds[k];
      } else {
        assert preds'[k] == cur.pos;
        assert sp.distance(k, cur.pos) == 0.0 <==> k == cur.pos;
      }
    }
  }

  /** The rank of a recorded point: how many recorded points cost less. */
  function Rank(gc: map<Vec2, real>, c: Vec2): nat
  {
    if c in gc then |set k | k in gc && gc[k] < gc[c]| else |gc.Keys| + 1
  }

  /** Following a predecessor link to a cheaper recorded point lowers the
      rank, and any recorded point ranks below an unrecorded one. */
  lemma RankDecreases(gc: map<Vec2, real>, c: Vec2, p: Vec2)
    requires p in gc
    requires c in gc ==> gc[p] < gc[c]
    ensures Rank(gc, p) < Rank(gc, c)
  {
    var below := set k | k in gc && gc[k] < gc[p];
    if c in gc {
      var belowC := set k | k in gc && gc[k] < gc[c];
      ProperSubsetSmaller(below, belowC, p);
    } else {
      ProperSubsetSmaller(below, gc.Keys, p);
    }
  }

  lemma ProperSubsetSmaller<T>(a: set<T>, b: set<T>, x: T)
    requires a <= b && x in b && x !in a
    ensures |a| < |b|
  {
    assert b == a + (b - a);
    assert x in b - a;
  }

  /** b was reached from a, and a sees b. */
  ghost predicate Linked(sp: Space, preds: map<Vec2, Vec2>, a: Vec2, b: Vec2)
  {
    b in preds && preds[b] == a && HasSight(sp, a, b)
  }

  /** Every consecutive pair of the path is `Linked`. */
  ghost predicate Chain(sp: Space, preds: map<Vec2, Vec2>, path: seq<Vec2>)
  {
    forall i :: 0 <= i < |path| - 1 ==> Linked(sp, preds, path[i], path[i + 1])
  }

  /** One step back from a point that is not the start: its predecessor
      exists, is recorded, sees it and ranks lower. */
  lemma LinkBack(sp: Space, start: Vec2, goal: Vec2, gc: map<Vec2, real>, preds: map<Vec2, Vec2>,
                 current: Vec2)
    requires goal in preds && preds[goal] in gc
    requires forall k :: k in preds && k != goal ==> k in gc && preds[k] in gc && gc[preds[k]] < gc[k]
    requires forall k :: k in gc && k != start ==> k in preds
    requires start != goal ==> goal !in gc
    requires forall k :: k in preds ==> HasSight(sp, preds[k], k)
    requires current != start && (current == goal || current in gc)
    ensures current in preds && preds[current] in gc
    ensures Linked(sp, preds, preds[current], current)
    ensures Rank(gc, preds[current]) < Rank(gc, current)
  {
    RankDecreases(gc, current, preds[current]);
  }

  /** Reading the path back from the goal along the predecessor links. The
      code pushes and then reverses; prepending gives the same sequence.
      Under the search invariant every recorded point other than the start
      has a predecessor, so the chain always reaches the start: the code's
      missing-link answer (None) cannot occur after a search. */
  method Reconstruct(sp: Space, start: Vec2, goal: Vec2, gc: map<Vec2, real>, preds: map<Vec2, Vec2>)
    returns (r: Option<seq<Vec2>>)
    requires goal in preds && preds[goal] in gc
    requires forall k :: k in preds && k != goal ==> k in gc && preds[k] in gc && gc[preds[k]] < gc[k]
    requires forall k :: k in gc && k != start ==> k in preds
    requires start != goal ==> goal !in gc
    requires forall k :: k in preds ==> HasSight(sp, preds[k], k)
    ensures r.Some?
    ensures |r.value| > 0 && r.value[0] == start && r.value[|r.value| - 1] == goal
    ensures forall i :: 0 <= i < |r.value| - 1 ==> Linked(sp, preds, r.value[i], r.value[i + 1])
    ensures start == goal ==> r == Some([goal])
    ensures start != goal && preds[goal] == start ==> r == Some([start, goal])
  {
    var path := [goal];
    var current := goal;
    while current != start
      invariant current == goal || current in gc
      invariant |path| > 0 && path[0] == current && path[|path| - 1] == goal
      invariant Chain(sp, preds, path)
      invariant start == goal ==> path == [goal]
      invariant start != goal && preds[goal] == start ==>
        (current == goal && path == [goal]) || (current == start && path == [start, goal])
      decreases Rank(gc, current)
    {
      LinkBack(sp, start, goal, gc, preds, current);
      var prev := preds[current];
      path := [prev] + path;
      current := prev;
    }
    return Some(path);
  }

  /** Expanded position i is a probe position of an earlier one. */
  ghost predicate ProbedBefore(s: AStarStrategy, sp: Space, expanded: seq<Vec2>, i: nat)
    requires i < |expanded|
  {
    exists j :: 0 <= j < i && IsProbe(s, sp, expanded[j], expanded[i])
  }

  /** Every expanded position after the first is a probe position of an
      earlier one. */
  ghost predicate ProbeChain(s: AStarStrategy, sp: Space, expanded: seq<Vec2>)
  {
    forall i :: 0 < i < |expanded| ==> ProbedBefore(s, sp, expanded, i)
  }

  /** Entry e was pushed by an expanded position, its recorded
      predecessor, of which it is a probe position. */
  ghost predicate PushedBy(s: AStarStrategy, sp: Space, expanded: seq<Vec2>, e: SearchNode)
  {
    e.pre.Some? &&
    exists j :: 0 <= j < |expanded| && expanded[j] == e.pre.value && IsProbe(s, sp, expanded[j], e.pos)
  }

  /** Every queued entry was pushed by an expanded position. */
  ghost predicate QueuedFromExpanded(s: AStarStrategy, sp: Space, queue: seq<SearchNode>, expanded: seq<Vec2>)
  {
    forall e :: e in queue ==> PushedBy(s, sp, expanded, e)
  }

  /** Expanding a queued entry extends the chain. */
  lemma ChainExtend(s: AStarStrategy, sp: Space, queue: seq<SearchNode>, expanded: seq<Vec2>, cur: SearchNode)
    requires ProbeChain(s, sp, expanded) && QueuedFromExpanded(s, sp, queue, expanded) && cur in queue
    ensures ProbeChain(s, sp, expanded + [cur.pos])
  {
    var e' := expanded + [cur.pos];
    forall i | 0 < i < |e'|
      ensures ProbedBefore(s, sp, e', i)
    {
      if i < |expanded| {
        assert ProbedBefore(s, sp, expanded, i);
        var j :| 0 <= j < i && IsProbe(s, sp, expanded[j], expanded[i]);
        assert e'[j] == expanded[j] && e'[i] == expanded[i];
      } else {
        assert PushedBy(s, sp, expanded, cur);
        var j :| 0 <= j < |expanded| && expanded[j] == cur.pre.value && IsProbe(s, sp, expanded[j], cur.pos);
        assert e'[j] == expanded[j] && e'[i] == cur.pos;
      }
    }
  }

  /** The record survives removing entries and expanding more positions. */
  lemma QueuedShrinkGrow(s: AStarStrategy, sp: Space, queue: seq<SearchNode>, rest: seq<SearchNode>,
                         expanded: seq<Vec2>, more: seq<Vec2>)
    requires QueuedFromExpanded(s, sp, queue, expanded)
    requires forall e :: e in rest ==> e in queue
    ensures QueuedFromExpanded(s, sp, rest, expanded + more)
  {
    forall e | e in rest
      ensures PushedBy(s, sp, expanded + more, e)
    {
      assert PushedBy(s, sp, expanded, e);
      var j :| 0 <= j < |expanded| && expanded[j] == e.pre.value && IsProbe(s, sp, expanded[j], e.pos);
      assert (expanded + more)[j] == expanded[j];
    }
  }

  /** The entries an expansion of the last expanded position pushes keep
      the record. */
  lemma QueuedAfterExpand(s: AStarStrategy, sp: Space, cur: SearchNode, goal: Vec2,
                          gc: map<Vec2, real>, gc': map<Vec2, real>,
                          queue: seq<SearchNode>, queue': seq<SearchNode>, expanded: seq<Vec2>)
    requires QueuedFromExpanded(s, sp, queue, expanded)
    requires |expanded| > 0 && expanded[|expanded| - 1] == cur.pos
    requires PushedImproved(s, sp, cur, goal, gc, gc', queue, queue')
    ensures QueuedFromExpanded(s, sp, queue', expanded)
  {
    forall e | e in queue'
      ensures PushedBy(s, sp, expanded, e)
    {
      var k :| 0 <= k < |queue'| && queue'[k] == e;
      if k < |queue| {
        assert e == queue[k] && e in queue;
      } else {
        assert e.pre == Some(cur.pos) && IsProbe(s, sp, cur.pos, e.pos);
        assert expanded[|expanded| - 1] == e.pre.value;
      }
    }
  }

  /** Where the expanded positions and the queue come from, after `pops`
      pops: a probe chain, and (once the start entry is gone) entries pushed
      by expanded positions. */
  ghost predicate Provenance(s: AStarStrategy, sp: Space, queue: seq<SearchNode>, expanded: seq<Vec2>, pops: nat)
  {
    ProbeChain(s, sp, expanded) && (pops > 0 ==> QueuedFromExpanded(s, sp, queue, expanded))
  }

  /** A pop that skips a stale entry keeps the provenance. */
  lemma ProvenancePop(s: AStarStrategy, sp: Space, before: seq<SearchNode>, rest: seq<SearchNode>,
                      expanded: seq<Vec2>, pops: nat)
    requires Provenance(s, sp, before, expanded, pops)
    requires forall e :: e in rest ==> e in before
    requires pops == 0 ==> |rest| == 0
    ensures Provenance(s, sp, rest, expanded, pops + 1)
  {
    if pops > 0 {
      QueuedShrinkGrow(s, sp, before, rest, expanded, []);
      assert expanded + [] == expanded;
    }
  }

  /** A pop that expands its entry keeps the provenance. */
  lemma ProvenanceExpand(s: AStarStrategy, sp: Space, before: seq<SearchNode>, rest: seq<SearchNode>,
                         expanded: seq<Vec2>, pops: nat, cur: SearchNode)
    requires Provenance(s, sp, before, expanded, pops)
    requires cur in before && forall e :: e in rest ==> e in before
    requires pops == 0 ==> |rest| == 0 && expanded == []
    ensures Provenance(s, sp, rest, expanded + [cur.pos], pops + 1)
  {
    if pops > 0 {
      ChainExtend(s, sp, before, expanded, cur);
      QueuedShrinkGrow(s, sp, before, rest, expanded, [cur.pos]);
    } else {
      assert expanded + [cur.pos] == [cur.pos];
    }
  }

  /** The entries an expansion pushes keep the provenance. */
  lemma ProvenanceAfterExpand(s: AStarStrategy, sp: Space, cur: SearchNode, goal: Vec2,
                              gc: map<Vec2, real>, gc': map<Vec2, real>,
                              queue: seq<SearchNode>, queue': seq<SearchNode>, expanded: seq<Vec2>, pops: nat)
    requires Provenance(s, sp, queue, expanded, pops) && pops > 0
    requires |expanded| > 0 && expanded[|expanded| - 1] == cur.pos
    requires PushedImproved(s, sp, cur, goal, gc, gc', queue, queue')
    ensures Provenance(s, sp, queue', expanded, pops)
  {
    QueuedAfterExpand(s, sp, cur, goal, gc, gc', queue, queue', expanded);
  }

  /** p is queued at cost g. */
  ghost predicate Queued(queue: seq<SearchNode>, p: Vec2, g: real)
  {
    exists e :: e in queue && e.pos == p && e.g == g
  }

  /** Recorded point p is closed: it does not see the goal, and every probe
      position it offers is recorded at a cost no higher than the cost
      through p. */
  ghost predicate Closed(s: AStarStrategy, sp: Space, goal: Vec2, gc: map<Vec2, real>, p: Vec2)
  {
    p in gc && !HasSight(sp, p, goal) &&
    forall i :: 0 <= i < 8 && GetNewPos(s, sp, p, DIRECTIONS[i]).Some? ==>
      var q := GetNewPos(s, sp, p, DIRECTIONS[i]).value;
      q in gc && gc[q] <= gc[p] + sp.distance(q, p)
  }

  /** Every recorded point is queued at its recorded cost, or closed. */
  ghost predicate Covered(s: AStarStrategy, sp: Space, goal: Vec2, queue: seq<SearchNode>, gc: map<Vec2, real>)
  {
    forall p :: p in gc ==> Queued(queue, p, gc[p]) || Closed(s, sp, goal, gc, p)
  }

  /** What `queue.pop()` promises: cur is a greatest entry and rest holds
      the others. */
  ghost predicate PoppedBest(queue: seq<SearchNode>, cur: SearchNode, rest: seq<SearchNode>)
  {
    cur in queue && multiset(rest) + multiset{cur} == multiset(queue) &&
    |rest| == |queue| - 1 && (forall e :: e in rest ==> e in queue) &&
    (forall e :: e in queue ==> Cmp(e, cur) != Greater)
  }

  /** An entry other than the popped one stays queued. */
  lemma StaysQueued(queue: seq<SearchNode>, cur: SearchNode, rest: seq<SearchNode>, e: SearchNode)
    requires PoppedBest(queue, cur, rest) && e in queue && e != cur
    ensures e in rest
  {
    assert e in multiset(queue);
  }

  /** Skipping a stale entry keeps every point covered. */
  lemma CoveredAfterStale(s: AStarStrategy, sp: Space, goal: Vec2, queue: seq<SearchNode>,
                          cur: SearchNode, rest: seq<SearchNode>, gc: map<Vec2, real>)
    requires Covered(s, sp, goal, queue, gc) && PoppedBest(queue, cur, rest)
    requires cur.pos in gc && cur.g > gc[cur.pos]
    ensures Covered(s, sp, goal, rest, gc)
  {
    forall p | p in gc && Queued(queue, p, gc[p])
      ensures Queued(rest, p, gc[p])
    {
      var e :| e in queue && e.pos == p && e.g == gc[p];
      StaysQueued(queue, cur, rest, e);
    }
  }

  /** Expanding a non-stale entry that does not see the goal closes its
      point (or queues it again at a lower cost) and keeps every other
      point covered. */
  lemma CoveredAfterExpand(s: AStarStrategy, sp: Space, goal: Vec2, queue: seq<SearchNode>,
                           cur: SearchNode, rest: seq<SearchNode>, gc: map<Vec2, real>,
                           gc': map<Vec2, real>, preds': map<Vec2, Vec2>, queue': seq<SearchNode>)
    requires Covered(s, sp, goal, queue, gc) && PoppedBest(queue, cur, rest)
    requires cur.pos in gc && cur.g == gc[cur.pos] && !HasSight(sp, cur.pos, goal)
    requires RelaxedUpTo(s, sp, cur, goal, gc, gc', rest, queue', 8)
    requires CostsNoHigher(gc, gc')
    requires WrittenOnImprovement(s, sp, cur, goal, gc, gc', preds', rest, queue')
    requires |rest| <= |queue'| && queue'[..|rest|] == rest
    ensures Covered(s, sp, goal, queue', gc')
  {
    forall p | p in gc'
      ensures Queued(queue', p, gc'[p]) || Closed(s, sp, goal, gc', p)
    {
      if p !in gc || gc'[p] != gc[p] {
        var e := Successor(sp, cur, goal, p);
        var j :| |rest| <= j < |queue'| && queue'[j] == e;
        assert e in queue' && e.pos == p && e.g == gc'[p];
      } else if p == cur.pos {
        forall i | 0 <= i < 8 && GetNewPos(s, sp, p, DIRECTIONS[i]).Some?
          ensures GetNewPos(s, sp, p, DIRECTIONS[i]).value in gc'
          ensures gc'[GetNewPos(s, sp, p, DIRECTIONS[i]).value]
                  <= gc'[p] + sp.distance(GetNewPos(s, sp, p, DIRECTIONS[i]).value, p)
        {
          assert Relaxed(sp, cur, goal, gc, gc', rest, queue', GetNewPos(s, sp, p, DIRECTIONS[i]).value);
        }
      } else if Queued(queue, p, gc[p]) {
        var e :| e in queue && e.pos == p && e.g == gc[p];
        StaysQueued(queue, cur, rest, e);
        var j :| 0 <= j < |rest| && rest[j] == e;
        assert queue'[j] == e;
      } else {
        assert Closed(s, sp, goal, gc, p);
      }
    }
  }

  /** Every recorded point is closed. */
  ghost predicate AllClosed(s: AStarStrategy, sp: Space, goal: Vec2, gc: map<Vec2, real>)
  {
    forall p :: p in gc ==> Closed(s, sp, goal, gc, p)
  }

  /** Each position of the sequence is a probe position of the one before. */
  ghost predicate ProbePath(s: AStarStrategy, sp: Space, c: seq<Vec2>)
  {
    forall i :: 0 <= i < |c| - 1 ==> IsProbe(s, sp, c[i], c[i + 1])
  }

  /** Once every recorded point is closed and the start is recorded, no
      position reachable from the start by probe steps sees the goal: the
      search has exhausted the probe graph. */
  lemma {:induction false} ClosedReach(s: AStarStrategy, sp: Space, start: Vec2, goal: Vec2,
                                       gc: map<Vec2, real>, c: seq<Vec2>)
    requires start in gc && AllClosed(s, sp, goal, gc)
    requires |c| > 0 && c[0] == start && ProbePath(s, sp, c)
    ensures c[|c| - 1] in gc && !HasSight(sp, c[|c| - 1], goal)
    decreases |c|
  {
    if |c| > 1 {
      var c' := c[..|c| - 1];
      assert ProbePath(s, sp, c') by {
        forall i | 0 <= i < |c'| - 1 ensures IsProbe(s, sp, c'[i], c'[i + 1]) {
          assert c'[i] == c[i] && c'[i + 1] == c[i + 1];
        }
      }
      ClosedReach(s, sp, start, goal, gc, c');
      var p := c[|c| - 2];
      assert p == c'[|c'| - 1];
      assert IsProbe(s, sp, p, c[|c| - 1]);
      var i :| 0 <= i < 8 && GetNewPos(s, sp, p, DIRECTIONS[i]) == Some(c[|c| - 1]);
      assert Closed(s, sp, goal, gc, p);
      assert Closed(s, sp, goal, gc, c[|c| - 1]);
    } else {
      assert Closed(s, sp, goal, gc, c[0]);
    }
  }

  /** The same for every probe path from the start at once. */
  lemma Unreachable(s: AStarStrategy, sp: Space, start: Vec2, goal: Vec2, gc: map<Vec2, real>)
    requires start in gc && AllClosed(s, sp, goal, gc)
    ensures forall c :: ProbePath(s, sp, c) && |c| > 0 && c[0] == start ==> !HasSight(sp, c[|c| - 1], goal)
  {
    forall c | ProbePath(s, sp, c) && |c| > 0 && c[0] == start
      ensures !HasSight(sp, c[|c| - 1], goal)
    {
      ClosedReach(s, sp, start, goal, gc, c);
    }
  }

  /** What `Reconstruct` needs from a finished search. */
  ghost predicate ReadyToReconstruct(sp: Space, start: Vec2, goal: Vec2,
                                     gc: map<Vec2, real>, preds: map<Vec2, Vec2>)
  {
    goal in preds && preds[goal] in gc &&
    (forall k :: k in preds && k != goal ==> k in gc && preds[k] in gc && gc[preds[k]] < gc[k]) &&
    (forall k :: k in gc && k != start ==> k in preds) &&
    (start != goal ==> goal !in gc) &&
    (forall k :: k in preds ==> HasSight(sp, preds[k], k))
  }

  /** Linking the goal to a searched position that sees it leaves the
      maps ready for `Reconstruct`. */
  lemma LinkGoal(sp: Space, start: Vec2, goal: Vec2, queue: seq<SearchNode>,
                 gc: map<Vec2, real>, preds: map<Vec2, Vec2>, from: Vec2)
    requires SearchInv(sp, start, goal, queue, gc, preds)
    requires from in gc && HasSight(sp, from, goal)
    ensures ReadyToReconstruct(sp, start, goal, gc, preds[goal := from])
  {
  }

  /** No position of `xs` sees the goal. */
  ghost predicate NoneSees(sp: Space, xs: seq<Vec2>, goal: Vec2)
  {
    forall i :: 0 <= i < |xs| ==> !HasSight(sp, xs[i], goal)
  }

  /** The state the search loop carries from pop to pop: the queue, the
      cost and predecessor maps, whether the goal node has been set (which
      ends the loop) and, as a record of the run, the positions expanded so
      far. */
  datatype SearchState = SearchState(queue: seq<SearchNode>, gc: map<Vec2, real>,
                                     preds: map<Vec2, Vec2>, found: bool, expanded: seq<Vec2>)

  /** One pop: the entry taken and the entries left behind. */
  datatype Pop = Pop(cur: SearchNode, rest: seq<SearchNode>)

  /** The state before the first pop: the start entry alone, at cost 0. */
  function InitState(sp: Space, start: Vec2, goal: Vec2): (st: SearchState)
    ensures |st.queue| == 1 && st.queue[0].pos == start && st.gc == map[start := 0.0] && !st.found
  {
    SearchState([SearchNode(start, None, 0.0, Heuristic(sp, start, goal))], map[start := 0.0], map[], false, [])
  }

  /** An entry costing more than its point's record is stale. */
  ghost predicate Stale(cur: SearchNode, gc: map<Vec2, real>)
  {
    cur.pos in gc && cur.g > gc[cur.pos]
  }

  /** What the probe loop promises (the contract of `Expand`). */
  ghost predicate Expanded(s: AStarStrategy, sp: Space, cur: SearchNode, goal: Vec2,
                           gc: map<Vec2, real>, preds: map<Vec2, Vec2>, queue: seq<SearchNode>,
                           gc': map<Vec2, real>, preds': map<Vec2, Vec2>, queue': seq<SearchNode>)
  {
    RelaxedUpTo(s, sp, cur, goal, gc, gc', queue, queue', 8) &&
    CostsNoHigher(gc, gc') &&
    WrittenOnImprovement(s, sp, cur, goal, gc, gc', preds', queue, queue') &&
    PredsOnImprovement(gc, gc', preds, preds') &&
    PushedImproved(s, sp, cur, goal, gc, gc', queue, queue')
  }

  /** One iteration of the search loop takes st, where the goal is not yet
      found, to st' by pop p: a greatest entry is popped; a stale one is
      dropped; one that sees the goal becomes the goal's predecessor and
      sets the goal node; any other is expanded by the probe loop. */
  ghost predicate SearchStep(s: AStarStrategy, sp: Space, goal: Vec2, st: SearchState, p: Pop, st': SearchState)
  {
    !st.found && PoppedBest(st.queue, p.cur, p.rest) &&
    if Stale(p.cur, st.gc) then
      st' == SearchState(p.rest, st.gc, st.preds, false, st.expanded)
    else if HasSight(sp, p.cur.pos, goal) then
      st' == SearchState(p.rest, st.gc, st.preds[goal := p.cur.pos], true, st.expanded + [p.cur.pos])
    else
      !st'.found && st'.expanded == st.expanded + [p.cur.pos] &&
      Expanded(s, sp, p.cur, goal, st.gc, st.preds, p.rest, st'.gc, st'.preds, st'.queue)
  }

  /** Pop i of the run is a step of the loop. */
  ghost predicate StepAt(s: AStarStrategy, sp: Space, goal: Vec2, states: seq<SearchState>, steps: seq<Pop>, i: nat)
    requires i < |steps| < |states|
  {
    SearchStep(s, sp, goal, states[i], steps[i], states[i + 1])
  }

  /** states is a run of the search loop from the initial state, one pop of
      steps between each consecutive pair. Since a step starts only where
      the goal is not yet found, only the last pop may find it. */
  ghost predicate Run(s: AStarStrategy, sp: Space, start: Vec2, goal: Vec2,
                      states: seq<SearchState>, steps: seq<Pop>)
  {
    |states| == |steps| + 1 && states[0] == InitState(sp, start, goal) &&
    forall i: nat :: i < |steps| ==> StepAt(s, sp, goal, states, steps, i)
  }

  /** A run of exactly `pops` pops that ends in st. */
  ghost predicate Traced(s: AStarStrategy, sp: Space, start: Vec2, goal: Vec2,
                         states: seq<SearchState>, steps: seq<Pop>, pops: nat, st: SearchState)
  {
    Run(s, sp, start, goal, states, steps) && |steps| == pops && states[|states| - 1] == st
  }

  /** A run extends by one step. */
  lemma RunSnoc(s: AStarStrategy, sp: Space, start: Vec2, goal: Vec2,
                states: seq<SearchState>, steps: seq<Pop>, pops: nat, st: SearchState,
                p: Pop, st': SearchState)
    requires Traced(s, sp, start, goal, states, steps, pops, st)
    requires SearchStep(s, sp, goal, st, p, st')
    ensures Traced(s, sp, start, goal, states + [st'], steps + [p], pops + 1, st')
  {
    var states', steps' := states + [st'], steps + [p];
    forall i: nat | i < |steps'|
      ensures StepAt(s, sp, goal, states', steps', i)
    {
      if i < |steps| {
        assert StepAt(s, sp, goal, states, steps, i);
        assert states'[i] == states[i] && steps'[i] == steps[i] && states'[i + 1] == states[i + 1];
      }
    }
  }

  /** The state of the search loop after `pops` pops, none of which found
      the goal: the search invariant, the start entry as the only entry
      before the first pop and the first position expanded after it, no
      expanded position seeing the goal, the provenance, and every recorded
      point queued at its cost or closed. */
  ghost predicate Searching(s: AStarStrategy, sp: Space, start: Vec2, goal: Vec2, fuel: nat,
                            queue: seq<SearchNode>, gc: map<Vec2, real>, preds: map<Vec2, Vec2>,
                            expanded: seq<Vec2>, pops: nat)
  {
    SearchInv(sp, start, goal, queue, gc, preds) &&
    (pops == 0 ==> queue == [SearchNode(start, None, 0.0, Heuristic(sp, start, goal))] && expanded == []) &&
    (pops > 0 ==> |expanded| > 0 && expanded[0] == start) &&
    NoneSees(sp, expanded, goal) &&
    (HasSight(sp, start, goal) ==> pops == 0) &&
    pops <= fuel &&
    Provenance(s, sp, queue, expanded, pops) &&
    Covered(s, sp, goal, queue, gc)
  }

  /** What the search loop promises when it ends: at most `fuel` pops, and
      when the goal was not found, the fuel is spent or the queue is empty,
      and in the latter case every recorded point is closed; the start is
      recorded; the expanded positions form a probe chain from the start;
      only the last of them may see the goal, and it does exactly when the
      goal was found, in which case it is the goal's predecessor and the
      maps are ready for `Reconstruct`; a start that sees the goal is the
      only position expanded. */
  ghost predicate SearchOutcome(s: AStarStrategy, sp: Space, start: Vec2, goal: Vec2, fuel: nat,
                                found: bool, gc: map<Vec2, real>, preds: map<Vec2, Vec2>,
                                expanded: seq<Vec2>, pops: nat, queue: seq<SearchNode>)
  {
    pops <= fuel &&
    (!found ==> pops == fuel || |queue| == 0) &&
    (!found && |queue| == 0 ==> AllClosed(s, sp, goal, gc)) &&
    start in gc &&
    ProbeChain(s, sp, expanded) &&
    (fuel > 0 ==> |expanded| > 0 && expanded[0] == start) &&
    (forall i :: 0 <= i < |expanded| - 1 ==> !HasSight(sp, expanded[i], goal)) &&
    (found <==> |expanded| > 0 && HasSight(sp, expanded[|expanded| - 1], goal)) &&
    (found ==> ReadyToReconstruct(sp, start, goal, gc, preds) && preds[goal] == expanded[|expanded| - 1]) &&
    (fuel > 0 && HasSight(sp, start, goal) ==> expanded == [start])
  }

  /** Popping a stale entry is a step of the run and keeps the loop state. */
  lemma StaleStep(s: AStarStrategy, sp: Space, start: Vec2, goal: Vec2, fuel: nat,
                  before: seq<SearchNode>, cur: SearchNode, rest: seq<SearchNode>,
                  gc: map<Vec2, real>, preds: map<Vec2, Vec2>, expanded: seq<Vec2>, pops: nat)
    requires Searching(s, sp, start, goal, fuel, before, gc, preds, expanded, pops) && pops < fuel
    requires PoppedBest(before, cur, rest) && Stale(cur, gc)
    ensures Searching(s, sp, start, goal, fuel, rest, gc, preds, expanded, pops + 1)
    ensures SearchStep(s, sp, goal, SearchState(before, gc, preds, false, expanded), Pop(cur, rest),
                       SearchState(rest, gc, preds, false, expanded))
  {
    ProvenancePop(s, sp, before, rest, expanded, pops);
    CoveredAfterStale(s, sp, goal, before, cur, rest, gc);
  }

  /** Expanding a non-stale entry that does not see the goal is a step of
      the run and keeps the loop state. */
  lemma ExpandStep(s: AStarStrategy, sp: Space, start: Vec2, goal: Vec2, fuel: nat,
                   before: seq<SearchNode>, cur: SearchNode, rest: seq<SearchNode>,
                   gc: map<Vec2, real>, preds: map<Vec2, Vec2>, expanded: seq<Vec2>, pops: nat,
                   queue': seq<SearchNode>, gc': map<Vec2, real>, preds': map<Vec2, Vec2>)
    requires Searching(s, sp, start, goal, fuel, before, gc, preds, expanded, pops) && pops < fuel
    requires PoppedBest(before, cur, rest) && !Stale(cur, gc)
    requires !HasSight(sp, cur.pos, goal)
    requires Expanded(s, sp, cur, goal, gc, preds, rest, gc', preds', queue')
    ensures Searching(s, sp, start, goal, fuel, queue', gc', preds', expanded + [cur.pos], pops + 1)
    ensures SearchStep(s, sp, goal, SearchState(before, gc, preds, false, expanded), Pop(cur, rest),
                       SearchState(queue', gc', preds', false, expanded + [cur.pos]))
  {
    ProvenanceExpand(s, sp, before, rest, expanded, pops, cur);
    var expanded' := expanded + [cur.pos];
    assert NoneSees(sp, expanded', goal) by {
      forall i | 0 <= i < |expanded'| ensures !HasSight(sp, expanded'[i], goal) {
        if i < |expanded| { assert expanded'[i] == expanded[i]; }
      }
    }
    ExpandKeepsInv(s, sp, start, goal, cur, rest, gc, preds, queue', gc', preds');
    ProvenanceAfterExpand(s, sp, cur, goal, gc, gc', rest, queue', expanded', pops + 1);
    CoveredAfterExpand(s, sp, goal, before, cur, rest, gc, gc', preds', queue');
  }

  /** A non-stale entry that sees the goal is the last step of the run and
      ends the search with the goal found. */
  lemma FoundStep(s: AStarStrategy, sp: Space, start: Vec2, goal: Vec2, fuel: nat,
                  before: seq<SearchNode>, cur: SearchNode, rest: seq<SearchNode>,
                  gc: map<Vec2, real>, preds: map<Vec2, Vec2>, expanded: seq<Vec2>, pops: nat)
    requires Searching(s, sp, start, goal, fuel, before, gc, preds, expanded, pops) && pops < fuel
    requires PoppedBest(before, cur, rest) && !Stale(cur, gc)
    requires HasSight(sp, cur.pos, goal)
    ensures SearchOutcome(s, sp, start, goal, fuel, true, gc, preds[goal := cur.pos],
                          expanded + [cur.pos], pops + 1, rest)
  {
    ProvenanceExpand(s, sp, before, rest, expanded, pops, cur);
    LinkGoal(sp, start, goal, before, gc, preds, cur.pos);
    var expanded' := expanded + [cur.pos];
    forall i | 0 <= i < |expanded'| - 1 ensures !HasSight(sp, expanded'[i], goal) {
      assert expanded'[i] == expanded[i];
    }
  }

  /** Popping a non-stale entry that sees the goal is a step of the run,
      the one that sets the goal node. */
  lemma FoundIsStep(s: AStarStrategy, sp: Space, goal: Vec2,
                    before: seq<SearchNode>, cur: SearchNode, rest: seq<SearchNode>,
                    gc: map<Vec2, real>, preds: map<Vec2, Vec2>, expanded: seq<Vec2>)
    requires PoppedBest(before, cur, rest) && !Stale(cur, gc)
    requires HasSight(sp, cur.pos, goal)
    ensures SearchStep(s, sp, goal, SearchState(before, gc, preds, false, expanded), Pop(cur, rest),
                       SearchState(rest, gc, preds[goal := cur.pos], true, expanded + [cur.pos]))
  {
  }

  /** A loop that runs out of entries or fuel ends without the goal; with
      no entries left, every recorded point is closed. */
  lemma ExhaustedStep(s: AStarStrategy, sp: Space, start: Vec2, goal: Vec2, fuel: nat,
                      queue: seq<SearchNode>, gc: map<Vec2, real>, preds: map<Vec2, Vec2>,
                      expanded: seq<Vec2>, pops: nat)
    requires Searching(s, sp, start, goal, fuel, queue, gc, preds, expanded, pops)
    requires !(|queue| > 0 && pops < fuel)
    ensures SearchOutcome(s, sp, start, goal, fuel, false, gc, preds, expanded, pops, queue)
  {
    if |queue| == 0 {
      forall p | p in gc ensures Closed(s, sp, goal, gc, p) {
        assert !Queued(queue, p, gc[p]);
      }
    }
  }

  /** The search loop of `path_finding`, with at most `fuel` pops. It
      answers whether a non-stale entry saw the goal, the cost and
      predecessor maps (the goal linked to that entry when found), the
      number of pops and the queue left at the end; as ghosts, the
      positions of the popped entries that were not stale, in pop order,
      and the run of loop states and pops that produced the answer. */
  method Search(s: AStarStrategy, sp: Space, startPos: Vec2, goalPos: Vec2, fuel: nat)
    returns (found: bool, gCosts: map<Vec2, real>, predecessors: map<Vec2, Vec2>,
             ghost expanded: seq<Vec2>, pops: nat, queue: seq<SearchNode>,
             ghost states: seq<SearchState>, ghost steps: seq<Pop>, ghost final: SearchState)
    ensures SearchOutcome(s, sp, startPos, goalPos, fuel, found, gCosts, predecessors, expanded, pops, queue)
    ensures Traced(s, sp, startPos, goalPos, states, steps, pops, final)
    ensures final == SearchState(queue, gCosts, predecessors, found, expanded)
  {
    expanded := [];
    queue := [SearchNode(startPos, None, 0.0, Heuristic(sp, startPos, goalPos))];
    gCosts := map[startPos := 0.0];
    predecessors := map[];
    pops := 0;
    states, steps := [InitState(sp, startPos, goalPos)], [];
    while |queue| > 0 && pops < fuel
      invariant Searching(s, sp, startPos, goalPos, fuel, queue, gCosts, predecessors, expanded, pops)
      invariant Traced(s, sp, startPos, goalPos, states, steps, pops,
                       SearchState(queue, gCosts, predecessors, false, expanded))
      decreases fuel - pops
    {
      ghost var st := SearchState(queue, gCosts, predecessors, false, expanded);
      ghost var before := queue;
      var cur;
      cur, queue := PopBest(queue);
      assert PoppedBest(before, cur, queue);

      if cur.pos in gCosts && cur.g > gCosts[cur.pos] {
        StaleStep(s, sp, startPos, goalPos, fuel, before, cur, queue, gCosts, predecessors, expanded, pops);
        RunSnoc(s, sp, startPos, goalPos, states, steps, pops, st, Pop(cur, queue),
                SearchState(queue, gCosts, predecessors, false, expanded));
        states, steps := states + [SearchState(queue, gCosts, predecessors, false, expanded)], steps + [Pop(cur, queue)];
        pops := pops + 1;
        continue;
      }

      if HasSight(sp, cur.pos, goalPos) {
        FoundStep(s, sp, startPos, goalPos, fuel, before, cur, queue, gCosts, predecessors, expanded, pops);
        FoundIsStep(s, sp, goalPos, before, cur, queue, gCosts, predecessors, expanded);
        ghost var st' := SearchState(queue, gCosts, predecessors[goalPos := cur.pos], true, expanded + [cur.pos]);
        RunSnoc(s, sp, startPos, goalPos, states, steps, pops, st, Pop(cur, queue), st');
        states, steps := states + [st'], steps + [Pop(cur, queue)];
        pops, expanded := pops + 1, expanded + [cur.pos];
        predecessors := predecessors[goalPos := cur.pos];
        return true, gCosts, predecessors, expanded, pops, queue, states, steps, st';
      }

      var gc', preds', queue' := Expand(s, sp, cur, goalPos, gCosts, predecessors, queue);
      ExpandStep(s, sp, startPos, goalPos, fuel, before, cur, queue, gCosts, predecessors, expanded, pops,
                 queue', gc', preds');
      ghost var st' := SearchState(queue', gc', preds', false, expanded + [cur.pos]);
      RunSnoc(s, sp, startPos, goalPos, states, steps, pops, st, Pop(cur, queue), st');
      states, steps := states + [st'], steps + [Pop(cur, queue)];
      pops, expanded := pops + 1, expanded + [cur.pos];
      gCosts, predecessors, queue := gc', preds', queue';
    }
    ExhaustedStep(s, sp, startPos, goalPos, fuel, queue, gCosts, predecessors, expanded, pops);
    found, final := false, SearchState(queue, gCosts, predecessors, false, expanded);
  }

  /** What `path_finding` answers for a start and a goal, with at most
      `fuel` pops: r is the path, read back through `preds`; `expanded`
      the positions of the popped entries that were not stale, in pop
      order; `popped` the number of pops; `left` and `costs` the queue and
      cost map at the end; and states and steps the run of loop states and
      pops, ending in `final`.
      The pops form a run of the search loop from the start entry; the
      start is expanded first and every later expanded position is a probe
      position of an earlier one; the search stops at the first non-stale
      entry that sees the goal, makes it the goal's predecessor and then
      always answers a path from start to goal; otherwise it answers None
      only once the fuel is spent, or once the queue is empty, and then no
      position reachable from the start by probe steps sees the goal. */
  ghost predicate Answered(s: AStarStrategy, sp: Space, start: Vec2, goal: Vec2, fuel: nat,
                           r: Option<seq<Vec2>>, preds: map<Vec2, Vec2>, expanded: seq<Vec2>,
                           popped: nat, left: seq<SearchNode>, costs: map<Vec2, real>,
                           states: seq<SearchState>, steps: seq<Pop>, final: SearchState)
  {
    Traced(s, sp, start, goal, states, steps, popped, final) &&
    final == SearchState(left, costs, preds, r.Some?, expanded) &&
    popped <= fuel &&
    (r.None? ==> popped == fuel || |left| == 0) &&
    (r.None? && popped < fuel ==>
      forall c :: ProbePath(s, sp, c) && |c| > 0 && c[0] == start ==> !HasSight(sp, c[|c| - 1], goal)) &&
    ProbeChain(s, sp, expanded) &&
    (r.Some? ==> |r.value| > 0 && r.value[0] == start && r.value[|r.value| - 1] == goal) &&
    (r.Some? ==> forall i :: 0 <= i < |r.value| - 1 ==> Linked(sp, preds, r.value[i], r.value[i + 1])) &&
    (fuel > 0 ==> |expanded| > 0 && expanded[0] == start) &&
    (forall i :: 0 <= i < |expanded| - 1 ==> !HasSight(sp, expanded[i], goal)) &&
    (r.Some? <==> |expanded| > 0 && HasSight(sp, expanded[|expanded| - 1], goal)) &&
    (r.Some? && start != goal ==> goal in preds && preds[goal] == expanded[|expanded| - 1]) &&
    (fuel > 0 && HasSight(sp, start, goal) ==> r == Some(if start == goal then [start] else [start, goal]))
  }

  /** The answer of `path_finding` after a search with this outcome and
      this run: the path read back when the goal was found, None
      otherwise. */
  lemma SearchAnswer(s: AStarStrategy, sp: Space, start: Vec2, goal: Vec2, fuel: nat,
                     found: bool, gc: map<Vec2, real>, preds: map<Vec2, Vec2>,
                     expanded: seq<Vec2>, pops: nat, queue: seq<SearchNode>, r: Option<seq<Vec2>>,
                     states: seq<SearchState>, steps: seq<Pop>)
    requires SearchOutcome(s, sp, start, goal, fuel, found, gc, preds, expanded, pops, queue)
    requires Traced(s, sp, start, goal, states, steps, pops, SearchState(queue, gc, preds, found, expanded))
    requires !found ==> r.None?
    requires found ==> r.Some? && |r.value| > 0 && r.value[0] == start && r.value[|r.value| - 1] == goal
    requires found ==> forall i :: 0 <= i < |r.value| - 1 ==> Linked(sp, preds, r.value[i], r.value[i + 1])
    requires found && start == goal ==> r == Some([goal])
    requires found && start != goal && preds[goal] == start ==> r == Some([start, goal])
    ensures Answered(s, sp, start, goal, fuel, r, preds, expanded, pops, queue, gc, states, steps,
                     SearchState(queue, gc, preds, r.Some?, expanded))
  {
    if !found && pops < fuel {
      Unreachable(s, sp, start, goal, gc);
    }
  }

  /** The end of `path_finding`: after a search with this outcome and
      this run, the path read back when the goal was found, None
      otherwise. */
  method ReadBack(s: AStarStrategy, sp: Space, start: Vec2, goal: Vec2, fuel: nat,
                  found: bool, gc: map<Vec2, real>, preds: map<Vec2, Vec2>, ghost expanded: seq<Vec2>,
                  ghost pops: nat, ghost queue: seq<SearchNode>, ghost states: seq<SearchState>, ghost steps: seq<Pop>)
    returns (r: Option<seq<Vec2>>)
    requires SearchOutcome(s, sp, start, goal, fuel, found, gc, preds, expanded, pops, queue)
    requires Traced(s, sp, start, goal, states, steps, pops, SearchState(queue, gc, preds, found, expanded))
    ensures Answered(s, sp, start, goal, fuel, r, preds, expanded, pops, queue, gc, states, steps,
                     SearchState(queue, gc, preds, r.Some?, expanded))
  {
    if found {
      r := Reconstruct(sp, start, goal, gc, preds);
    } else {
      r := None;
    }
    SearchAnswer(s, sp, start, goal, fuel, found, gc, preds, expanded, pops, queue, r, states, steps);
  }

  /** The body of `path_finding` once the start and the goal are known:
      the search loop, then the path read back when the goal was found. */
  method FindPath(s: AStarStrategy, sp: Space, start: Vec2, goal: Vec2, fuel: nat)
    returns (r: Option<seq<Vec2>>, ghost preds: map<Vec2, Vec2>, ghost expanded: seq<Vec2>,
             ghost popped: nat, ghost left: seq<SearchNode>, ghost costs: map<Vec2, real>,
             ghost states: seq<SearchState>, ghost steps: seq<Pop>, ghost final: SearchState)
    ensures Answered(s, sp, start, goal, fuel, r, preds, expanded, popped, left, costs, states, steps, final)
  {
    var found, gCosts, predecessors;
    ghost var last;
    found, gCosts, predecessors, expanded, popped, left, states, steps, last := Search(s, sp, start, goal, fuel);
    r := ReadBack(s, sp, start, goal, fuel, found, gCosts, predecessors, expanded, popped, left, states, steps);
    preds, costs, final := predecessors, gCosts, SearchState(left, gCosts, predecessors, r.Some?, expanded);
  }

  /** `path_finding`, with at most `fuel` pops: None when the start or
      the goal is missing, otherwise the answer `Answered` describes. */
  method PathFinding(s: AStarStrategy, sp: Space, start: Option<Vec2>, goal: Option<Vec2>, fuel: nat)
    returns (r: Option<seq<Vec2>>, ghost preds: map<Vec2, Vec2>, ghost expanded: seq<Vec2>,
             ghost popped: nat, ghost left: seq<SearchNode>, ghost costs: map<Vec2, real>,
             ghost states: seq<SearchState>, ghost steps: seq<Pop>, ghost final: SearchState)
    ensures start.None? || goal.None? ==> r.None?
    ensures r.Some? ==> start.Some? && goal.Some?
    ensures start.Some? && goal.Some? ==>
      Answered(s, sp, start.value, goal.value, fuel, r, preds, expanded, popped, left, costs, states, steps, final)
    ensures popped <= fuel
    ensures ProbeChain(s, sp, expanded)
  {
    if start.None? || goal.None? {
      preds, expanded, popped, left, costs, states, steps := map[], [], 0, [], map[], [], [];
      return None, preds, expanded, popped, left, costs, states, steps, SearchState(left, costs, preds, false, expanded);
    }
    r, preds, expanded, popped, left, costs, states, steps, final := FindPath(s, sp, start.value, goal.value, fuel);
  }
}

=== FILE: async.dfy ===
/** Running a solver off the interactive thread (src/game/async_pathfinding.rs).

    A task holds an optional thread handle and two slots shared with the
    worker: the solver's answer and a completion flag. The worker stores the
    answer and only then raises the flag; the per-frame completion check
    turns a stored answer into the displayed path. Threads, locks and the
    game engine's resources are not modelled; each shared slot is an object
    that several tasks may point to. */
module AsyncJob {
  import opened Geometry
  import opened Problems

  /** An `Arc<Mutex<T>>`: one mutable value reachable from every holder. */
  class Shared<T> {
    var value: T

    constructor (v: T)
      ensures value == v
    {
      value := v;
    }
  }

  /** A spawned thread's `JoinHandle`. */
  datatype Handle = Handle(id: nat)

  /** The solver's answer as the worker stores it. */
  type Answer = Option<seq<Vec2>>

  class PathfindingTask {
    var handle: Option<Handle>
    const result: Shared<Option<Answer>>
    const isComplete: Shared<bool>

    /** The worker's write order keeps this: a raised flag means an answer
        is stored. */
    ghost predicate Published()
      reads result, isComplete
    {
      isComplete.value ==> result.value.Some?
    }

    /** `PathfindingTask::default`: no handle, an empty answer slot and a
        lowered flag, in fresh slots. */
    constructor Default()
      ensures handle.None? && result.value.None? && !isComplete.value
      ensures fresh(result) && fresh(isComplete)
      ensures Published()
    {
      handle := None;
      result := new Shared(None);
      isComplete := new Shared(false);
    }

    constructor WithSlots(handle: Option<Handle>, result: Shared<Option<Answer>>, isComplete: Shared<bool>)
      ensures this.handle == handle && this.result == result && this.isComplete == isComplete
    {
      this.handle := handle;
      this.result := result;
      this.isComplete := isComplete;
    }

    /** `clone`: the same two slots, but no handle. */
    method Clone() returns (t: PathfindingTask)
      ensures fresh(t)
      ensures t.handle.None? && t.result == result && t.isComplete == isComplete
    {
      t := new PathfindingTask.WithSlots(None, result, isComplete);
    }
  }

  /** `start_pathfinding_thread`: fresh empty slots shared with the worker,
      and the handle of the thread that runs it. */
  method StartPathfindingThread(h: Handle) returns (task: PathfindingTask)
    ensures fresh(task) && fresh(task.result) && fresh(task.isComplete)
    ensures task.handle == Some(h) && task.result.value.None? && !task.isComplete.value
    ensures task.Published()
  {
    var result := new Shared<Option<Answer>>(None);
    var isComplete := new Shared(false);
    task := new PathfindingTask.WithSlots(Some(h), result, isComplete);
  }

  /** The worker's first write: the answer. */
  method StoreResult(result: Shared<Option<Answer>>, isComplete: Shared<bool>, path: Answer)
    requires isComplete.value ==> result.value.Some?
    modifies result
    ensures result.value == Some(path)
    ensures isComplete.value ==> result.value.Some?
  {
    result.value := Some(path);
  }

  /** The worker's second write: the flag, raised only over a stored
      answer. */
  method MarkComplete(result: Shared<Option<Answer>>, isComplete: Shared<bool>)
    requires result.value.Some?
    modifies isComplete
    ensures isComplete.value && result.value == old(result.value)
    ensures isComplete.value ==> result.value.Some?
  {
    isComplete.value := true;
  }

  /** The spawned closure, given what the solver returned: store, then
      raise the flag. Every state it passes through keeps `Published`. */
  method Worker(result: Shared<Option<Answer>>, isComplete: Shared<bool>, path: Answer)
    requires isComplete.value ==> result.value.Some?
    modifies result, isComplete
    ensures result.value == Some(path) && isComplete.value
  {
    StoreResult(result, isComplete, path);
    MarkComplete(result, isComplete);
  }

  /** The path shown once the answer is in: with both ends chosen, the
      solver's path framed by start and goal, or the straight segment
      [start, goal] when the solver found nothing; without both ends,
      nothing. */
  function AssemblePath(start: Option<Vec2>, goal: Option<Vec2>, answer: Answer)
    : (r: Option<seq<Vec2>>)
    ensures start.None? || goal.None? ==> r.None?
    ensures start.Some? && goal.Some? ==>
      r.Some? && |r.value| >= 2 && r.value[0] == start.value && r.value[|r.value| - 1] == goal.value
    ensures start.Some? && goal.Some? && answer.Some? ==>
      |r.value| == |answer.value| + 2 && r.value[1..|r.value| - 1] == answer.value
    ensures start.Some? && goal.Some? && answer.None? ==> |r.value| == 2
  {
    if start.Some? && goal.Some? then
      match answer
      case Some(path) => Some([start.value] + path + [goal.value])
      case None => Some([start.value, goal.value])
    else None
  }

  /** The part of the game's algorithm resource that the completion check
      reads and writes. */
  class AlgorithmResource {
    var problem: Problem
    var path: Option<seq<Vec2>>

    constructor (problem: Problem)
      ensures this.problem == problem && path.None?
    {
      this.problem := problem;
      path := None;
    }
  }

  /** `check_pathfinding_completion`: nothing happens unless the flag is
      raised and an answer is stored; then the assembled path is written
      and `done` reports the switch to the finished state and the removal
      of the pathfinding task. */
  method CheckCompletion(task: PathfindingTask, res: AlgorithmResource) returns (done: bool)
    modifies res
    ensures done <==> task.isComplete.value && task.result.value.Some?
    ensures !done ==> res.path == old(res.path)
    ensures done ==> res.path == AssemblePath(res.problem.start, res.problem.goal, task.result.value.value)
    ensures res.problem == old(res.problem)
  {
    done := false;
    if task.isComplete.value {
      match task.result.value
      case Some(answer) =>
        res.path := AssemblePath(res.problem.start, res.problem.goal, answer);
        done := true;
      case None =>
    }
  }
}

=== FILE: geometry.dfy ===
/** Plain value types shared by the grid and both solvers (src/algorithm/types.rs),
    plus the numeric primitives the code borrows from its maths library.

    Floating point is modelled by `real`. The primitives whose exact value the
    code never inspects -- Euclidean distance, `normalize_or_zero`, `powf` and the
    grid raycast -- are function values bundled in a `Space`; their subset types
    carry the only facts the callers rely on. */
module Geometry {

  datatype Option<T> = None | Some(value: T)

  /** Multiplying by a positive factor keeps the order of reals. */
  lemma MulLeq(a: real, b: real, c: real)
    requires a <= b && c > 0.0
    ensures a * c <= b * c
  {
    assert b * c - a * c == (b - a) * c;
  }

  lemma MulLess(a: real, b: real, c: real)
    requires a < b && c > 0.0
    ensures a * c < b * c
  {
    assert b * c - a * c == (b - a) * c;
  }

  datatype Vec2 = Vec2(x: real, y: real)
  {
    function Plus(o: Vec2): Vec2 { Vec2(x + o.x, y + o.y) }
    function Minus(o: Vec2): Vec2 { Vec2(x - o.x, y - o.y) }
    function Scale(k: real): Vec2 { Vec2(x * k, y * k) }
  }

  /** An axis-aligned rectangle: corner `pos`, extent `siz`. */
  datatype Quad = Quad(pos: Vec2, siz: Vec2)

  datatype Ray = Ray(root: Vec2, dir: Vec2)

  datatype RayHitInfo = RayHitInfo(pt: Vec2, nor: Vec2, dist: real)

  /** A distance never negative, and zero exactly between equal points. */
  ghost predicate IsMetric(d: (Vec2, Vec2) -> real)
  {
    forall a, b :: d(a, b) >= 0.0 && (d(a, b) == 0.0 <==> a == b)
  }

  function Discrete(a: Vec2, b: Vec2): real
  {
    if a == b then 0.0 else 1.0
  }

  type Metric = d: (Vec2, Vec2) -> real | IsMetric(d) witness Discrete

  /** A raycast reports at most one hit, never behind the ray's root. */
  ghost predicate HitsAhead(cast: Ray -> Option<RayHitInfo>)
  {
    forall r :: cast(r).Some? ==> cast(r).value.dist >= 0.0
  }

  function NoHit(r: Ray): Option<RayHitInfo>
  {
    None
  }

  type Raycaster = cast: Ray -> Option<RayHitInfo> | HitsAhead(cast) witness NoHit

  type PosReal = r: real | r > 0.0 witness 1.0

  /** `powf` as the solvers rely on it: a positive base gives a positive
      power. */
  type Power = pow: (real, real) -> real | forall a, b :: a > 0.0 ==> pow(a, b) > 0.0
    witness (a: real, b: real) => 1.0

  /** The geometry a solver works in: the library's distance, normalisation
      and power, the grid's raycast and the grid's (positive) pixel size. */
  datatype Space = Space(
    distance: Metric,
    normalize: Vec2 -> Vec2,
    powf: Power,
    raycast: Raycaster,
    pixelSize: PosReal)
}

=== FILE: grid.dfy ===
/** The obstacle grid (src/algorithm/grid.rs): a dense row-major array of
    width * height cells, a world-space root corner and a cell size. Every
    accessor checks its indices and reports absence instead of faulting. */
module GridMap {
  import opened Geometry

  datatype GridCell = Air | Wall

  /** The largest `usize`. */
  const USIZE_MAX: nat := 0xFFFF_FFFF_FFFF_FFFF

  /** `v as usize` for a float: truncation toward zero, saturating at 0 and
      at USIZE_MAX. */
  function AsUsize(v: real): (n: nat)
    ensures n <= USIZE_MAX
    ensures 0.0 <= v < USIZE_MAX as real ==> n as real <= v < n as real + 1.0
  {
    if v <= 0.0 then 0 else if v >= USIZE_MAX as real then USIZE_MAX else v.Floor
  }

  /** `(local / cell_size) as usize` for a non-negative offset, with the
      float division's zero divisor written out: a positive offset over 0 is
      +inf (saturating to USIZE_MAX), 0 over 0 is NaN (cast to 0). */
  function CellCoord(local: real, cellSize: real): (r: nat)
    ensures r <= USIZE_MAX
    ensures cellSize == 0.0 ==> (r == USIZE_MAX <==> local > 0.0)
  {
    if cellSize == 0.0 then (if local > 0.0 then USIZE_MAX else 0)
    else AsUsize(local / cellSize)
  }

  /** A multiple of a positive w smaller than w in size is zero. */
  lemma {:induction false} SmallMultiple(a: int, w: int)
    requires w > 0 && -w < a * w < w
    ensures a == 0
  {
    if a >= 1 {
      MulAtLeast(a, w);
    } else if a <= -1 {
      MulAtLeast(-a, w);
    }
  }

  lemma {:induction false} MulAtLeast(a: int, w: int)
    requires a >= 1 && w >= 0
    ensures a * w >= w
  {
    if a > 1 {
      MulAtLeast(a - 1, w);
      assert a * w == (a - 1) * w + w;
    }
  }

  /** Row-major index arithmetic: the index of an in-range (x, y) lies in the
      array and gives back x and y by remainder and quotient. */
  lemma {:induction false} RowMajor(x: nat, y: nat, w: nat, h: nat)
    requires x < w && y < h
    ensures y * w + x < w * h
    ensures (y * w + x) % w == x && (y * w + x) / w == y
  {
    var i := y * w + x;
    MulSucc(y, w);
    MulMono(y + 1, h, w);
    assert h * w == w * h;
    var q, r := i / w, i % w;
    DivMod(i, w);
    MulDiff(q, y, w);
    SmallMultiple(q - y, w);
  }

  lemma MulSucc(y: int, w: int)
    ensures (y + 1) * w == y * w + w
  {
  }

  lemma MulMono(a: int, b: int, w: int)
    requires a <= b && w >= 0
    ensures a * w <= b * w
  {
    assert b * w - a * w == (b - a) * w;
  }

  lemma MulDiff(q: int, y: int, w: int)
    ensures (q - y) * w == q * w - y * w
  {
  }

  lemma DivMod(i: int, w: int)
    requires w > 0
    ensures (i / w) * w + i % w == i && 0 <= i % w < w
  {
  }

  /** Along one axis, an offset whose cell coordinate is below USIZE_MAX
      lies in that cell: [origin + k * c, origin + k * c + c). */
  lemma {:induction false} CellFloor(origin: real, p: real, c: real)
    requires c > 0.0 && p - origin >= 0.0 && CellCoord(p - origin, c) < USIZE_MAX
    ensures origin + CellCoord(p - origin, c) as real * c <= p
    ensures p < origin + CellCoord(p - origin, c) as real * c + c
  {
    var local := p - origin;
    var v := local / c;
    var k := CellCoord(local, c);
    assert local == v * c;
    assert v >= 0.0 by {
      if v < 0.0 { MulLess(v, 0.0, c); }
    }
    assert k as real <= v < k as real + 1.0;
    MulLeq(k as real, v, c);
    MulLess(v, k as real + 1.0, c);
    calc {
      local;
    ==
      v * c;
    <
      (k as real + 1.0) * c;
    ==
      k as real * c + c;
    }
  }

  /** A cell coordinate is below n exactly when the offset is below n cells. */
  lemma {:induction false} CoordBelow(local: real, c: real, n: nat)
    requires c > 0.0 && local >= 0.0 && n <= USIZE_MAX
    ensures CellCoord(local, c) < n <==> local < n as real * c
  {
    var v := local / c;
    var k := CellCoord(local, c);
    assert local == v * c;
    assert v >= 0.0 by {
      if v < 0.0 { MulLess(v, 0.0, c); }
    }
    if v < USIZE_MAX as real {
      assert k as real <= v < k as real + 1.0;
      if k < n {
        MulLess(v, k as real + 1.0, c);
        MulLeq(k as real + 1.0, n as real, c);
        calc {
          local;
        ==
          v * c;
        <
          (k as real + 1.0) * c;
        <=
          n as real * c;
        }
      } else {
        MulLeq(n as real, k as real, c);
        MulLeq(k as real, v, c);
      }
    } else {
      assert k == USIZE_MAX;
      MulLeq(n as real, USIZE_MAX as real, c);
      MulLeq(USIZE_MAX as real, v, c);
    }
  }

  class Grid {
    const width: nat
    const height: nat
    const cellSize: real
    const root: Vec2
    const data: array<GridCell>

    /** The cell vector holds width * height cells and the sizes are usizes. */
    ghost predicate Valid()
    {
      data.Length == width * height && width <= USIZE_MAX && height <= USIZE_MAX
    }

    constructor (width: nat, height: nat, cellSize: real, root: Vec2)
      requires width <= USIZE_MAX && height <= USIZE_MAX
      requires width * height <= USIZE_MAX
      ensures Valid() && fresh(data)
      ensures this.width == width && this.height == height
      ensures this.cellSize == cellSize && this.root == root
      ensures forall i :: 0 <= i < data.Length ==> data[i] == Air
    {
      this.width := width;
      this.height := height;
      this.cellSize := cellSize;
      this.root := root;
      data := new GridCell[width * height](_ => Air);
    }

    /** `get_grid_pos`: the row-major index of an in-range cell. */
    function GridPos(x: nat, y: nat): (r: Option<nat>)
      ensures r.Some? <==> x < width && y < height
      ensures r.Some? ==> r.value < width * height
      ensures r.Some? ==> r.value % width == x && r.value / width == y
    {
      if x >= width || y >= height then None
      else
        RowMajor(x, y, width, height);
        Some(y * width + x)
    }

    /** Distinct in-range cells have distinct indices. */
    lemma GridPosInjective(x: nat, y: nat, x': nat, y': nat)
      requires GridPos(x, y).Some? && GridPos(x', y').Some?
      ensures GridPos(x, y) == GridPos(x', y') <==> x == x' && y == y'
    {
    }

    function Get(x: nat, y: nat): (r: Option<GridCell>)
      requires Valid()
      reads data
      ensures r.Some? <==> x < width && y < height
      ensures r.Some? ==> r.value == data[GridPos(x, y).value]
    {
      match GridPos(x, y)
      case None => None
      case Some(pos) => Some(data[pos])
    }

    function IsAir(x: nat, y: nat): (r: Option<bool>)
      requires Valid()
      reads data
      ensures r.Some? <==> x < width && y < height
      ensures r.Some? ==> (r.value <==> Get(x, y) == Some(Air))
    {
      match GridPos(x, y)
      case None => None
      case Some(pos) => Some(data[pos] == Air)
    }

    function IsWall(x: nat, y: nat): (r: Option<bool>)
      requires Valid()
      reads data
      ensures r.Some? <==> x < width && y < height
      ensures r.Some? ==> (r.value <==> Get(x, y) == Some(Wall))
    {
      match GridPos(x, y)
      case None => None
      case Some(pos) => Some(data[pos] == Wall)
    }

    /** An in-range cell is exactly one of air and wall; outside the grid
        both queries are absent. */
    lemma AirXorWall(x: nat, y: nat)
      requires Valid()
      ensures x < width && y < height ==>
        (IsAir(x, y) == Some(true)) != (IsWall(x, y) == Some(true))
      ensures !(x < width && y < height) ==> IsAir(x, y).None? && IsWall(x, y).None?
    {
    }

    method Set(x: nat, y: nat, val: GridCell) returns (r: Option<()>)
      requires Valid()
      modifies data
      ensures r.Some? <==> x < width && y < height
      ensures r.Some? ==> data[..] == old(data[..])[GridPos(x, y).value := val]
      ensures r.None? ==> data[..] == old(data[..])
      ensures r.Some? ==> Get(x, y) == Some(val)
      ensures forall i: nat, j: nat :: i != x || j != y ==> Get(i, j) == old(Get(i, j))
    {
      var pos := GridPos(x, y);
      if pos.None? {
        return None;
      }
      data[pos.value] := val;
      r := Some(());
      forall i: nat, j: nat | i != x || j != y
        ensures Get(i, j) == old(Get(i, j))
      {
        if i < width && j < height {
          GridPosInjective(x, y, i, j);
        }
      }
    }

    function WorldWidth(): (r: real)
      ensures cellSize >= 0.0 ==> r >= 0.0
      ensures cellSize > 0.0 ==> (r > 0.0 <==> width > 0)
    {
      width as real * cellSize
    }

    function WorldHeight(): (r: real)
      ensures cellSize >= 0.0 ==> r >= 0.0
      ensures cellSize > 0.0 ==> (r > 0.0 <==> height > 0)
    {
      height as real * cellSize
    }

    /** `bound_quad`: anchored at the root; with a positive cell size the
        root itself lies inside exactly when the grid has cells. */
    function BoundQuad(): (r: Quad)
      ensures r.pos == root
      ensures cellSize >= 0.0 ==> r.siz.x >= 0.0 && r.siz.y >= 0.0
      ensures cellSize > 0.0 ==> (Contains(r, root) <==> width > 0 && height > 0)
    {
      Quad(root, Vec2(WorldWidth(), WorldHeight()))
    }

    function GetCellQuad(x: nat, y: nat): (r: Option<Quad>)
      ensures r.Some? <==> x < width && y < height
      ensures r.Some? ==> r.value.siz == Vec2(cellSize, cellSize)
      ensures r.Some? ==>
        r.value.pos == root.Plus(Vec2(x as real, y as real).Scale(cellSize))
    {
      if x >= width || y >= height then None
      else
        Some(Quad(Vec2(root.x + x as real * cellSize, root.y + y as real * cellSize),
                  Vec2(cellSize, cellSize)))
    }

    /** Every cell's quad lies inside the grid's bounding quad. */
    lemma {:induction false} CellQuadWithinBounds(x: nat, y: nat)
      requires cellSize > 0.0 && x < width && y < height
      ensures Contains(BoundQuad(), GetCellQuad(x, y).value.pos)
      ensures GetCellQuad(x, y).value.pos.x + cellSize <= root.x + WorldWidth()
      ensures GetCellQuad(x, y).value.pos.y + cellSize <= root.y + WorldHeight()
    {
      assert (width - x - 1) as real * cellSize >= 0.0;
      assert (height - y - 1) as real * cellSize >= 0.0;
      assert x as real * cellSize >= 0.0 && y as real * cellSize >= 0.0;
    }

    function GetFromWorldPos(pos: Vec2): (r: Option<(nat, nat)>)
      ensures pos.x - root.x < 0.0 || pos.y - root.y < 0.0 ==> r.None?
      ensures r.Some? ==> r.value.0 < width && r.value.1 < height
    {
      var localX := pos.x - root.x;
      var localY := pos.y - root.y;
      if localX < 0.0 || localY < 0.0 then None
      else
        var gridX := CellCoord(localX, cellSize);
        var gridY := CellCoord(localY, cellSize);
        if gridX >= width || gridY >= height then None
        else Some((gridX, gridY))
    }

    /** With a positive cell size a world position maps to a cell exactly when
        it lies in the bounding quad. */
    lemma {:induction false} WorldPosInBounds(pos: Vec2)
      requires Valid() && cellSize > 0.0
      ensures GetFromWorldPos(pos).Some? <==> Contains(BoundQuad(), pos)
    {
      var lx, ly := pos.x - root.x, pos.y - root.y;
      assert BoundQuad() == Quad(root, Vec2(width as real * cellSize, height as real * cellSize));
      if lx >= 0.0 && ly >= 0.0 {
        CoordBelow(lx, cellSize, width);
        CoordBelow(ly, cellSize, height);
      }
    }

    /** A world position that maps to a cell lies in that cell's quad. */
    lemma {:induction false} WorldPosInCell(pos: Vec2)
      requires Valid() && cellSize > 0.0 && GetFromWorldPos(pos).Some?
      ensures Contains(GetCellQuad(GetFromWorldPos(pos).value.0, GetFromWorldPos(pos).value.1).value, pos)
    {
      var gx, gy := CellCoord(pos.x - root.x, cellSize), CellCoord(pos.y - root.y, cellSize);
      assert GetFromWorldPos(pos).value == (gx, gy);
      CellFloor(root.x, pos.x, cellSize);
      CellFloor(root.y, pos.y, cellSize);
    }

    /** The corner of a cell's quad maps back to that cell. */
    lemma {:induction false} WorldPosRoundTrip(x: nat, y: nat)
      requires Valid() && cellSize > 0.0 && x < width && y < height
      ensures GetFromWorldPos(GetCellQuad(x, y).value.pos) == Some((x, y))
    {
      var p := GetCellQuad(x, y).value.pos;
      assert (p.x - root.x) / cellSize == x as real;
      assert (p.y - root.y) / cellSize == y as real;
    }
  }

  /** Half-open containment of a point in a quad. */
  predicate Contains(q: Quad, p: Vec2)
  {
    q.pos.x <= p.x < q.pos.x + q.siz.x && q.pos.y <= p.y < q.pos.y + q.siz.y
  }
}

=== FILE: problem.dfy ===
/** A path-finding request (src/algorithm/problem.rs): the shared grid and the
    optional start and goal points; an absent end means "not chosen yet". */
module Problems {
  import opened Geometry
  import GridMap

  datatype Problem = Problem(grid: GridMap.Grid, start: Option<Vec2>, goal: Option<Vec2>)
}

=== FILE: sight.dfy ===
/** Line of sight, as both solvers define it (src/algorithm/solve/a_star.rs
    `has_sight` and the identical src/algorithm/solve/aco.rs `has_sight`):
    cast a ray from `from` towards `to` and accept any hit that lies at or
    beyond the target. */
module Sight {
  import opened Geometry

  /** The ray from `from` towards `to`, with the direction normalised. */
  function SightRay(sp: Space, from: Vec2, to: Vec2): Ray
  {
    Ray(from, sp.normalize(to.Minus(from)))
  }

  /** The raycast reports an obstacle strictly nearer than the target. */
  ghost predicate BlockedBefore(sp: Space, from: Vec2, to: Vec2)
  {
    var hit := sp.raycast(SightRay(sp, from, to));
    hit.Some? && hit.value.dist < sp.distance(from, to)
  }

  function HasSight(sp: Space, from: Vec2, to: Vec2): (r: bool)
    ensures from == to ==> r
    ensures r <==> from == to || !BlockedBefore(sp, from, to)
  {
    var distance := sp.distance(from, to);
    if distance == 0.0 then true
    else
      match sp.raycast(SightRay(sp, from, to))
      case None => true
      case Some(hit) => hit.dist >= distance
  }

  /** Sight is denied only by a hit in front of the target, and such a hit
      always denies it; a point always sees itself. */
  lemma SightDeniedOnlyByNearerHit(sp: Space, from: Vec2, to: Vec2)
    ensures HasSight(sp, from, from)
    ensures !HasSight(sp, from, to) ==>
      from != to && sp.raycast(SightRay(sp, from, to)).Some? &&
      0.0 <= sp.raycast(SightRay(sp, from, to)).value.dist < sp.distance(from, to)
  {
  }
}

=== FILE: timer.dfy ===
/** The per-algorithm timing record (src/game/timer.rs): last, running total
    and maximum milliseconds for the A* solver and for the hybrid solver. */
module Timers {

  /** The six fields as a value, for stating what an update does. */
  datatype Timings = Timings(
    aStarLastMs: real, aStarTotalMs: real, aStarMaxMs: real,
    hybridLastMs: real, hybridTotalMs: real, hybridMaxMs: real)

  /** What `reset_totals` does to the record: totals and maxima become 0,
      the last readings stay. */
  function ResetTotalsOf(t: Timings): (r: Timings)
    ensures r.aStarTotalMs == 0.0 && r.aStarMaxMs == 0.0
    ensures r.hybridTotalMs == 0.0 && r.hybridMaxMs == 0.0
    ensures r.aStarLastMs == t.aStarLastMs && r.hybridLastMs == t.hybridLastMs
  {
    t.(aStarTotalMs := 0.0, aStarMaxMs := 0.0, hybridTotalMs := 0.0, hybridMaxMs := 0.0)
  }

  /** Resetting twice is resetting once, and a reset changes nothing in a
      record whose totals and maxima are already 0. */
  lemma ResetTotalsIdempotent(t: Timings)
    ensures ResetTotalsOf(ResetTotalsOf(t)) == ResetTotalsOf(t)
    ensures ResetTotalsOf(t) == t <==>
      t.aStarTotalMs == 0.0 && t.aStarMaxMs == 0.0 && t.hybridTotalMs == 0.0 && t.hybridMaxMs == 0.0
  {
  }

  class AlgorithmTimers {
    var aStarLastMs: real
    var aStarTotalMs: real
    var aStarMaxMs: real
    var hybridLastMs: real
    var hybridTotalMs: real
    var hybridMaxMs: real

    function Snapshot(): Timings
      reads this
    {
      Timings(aStarLastMs, aStarTotalMs, aStarMaxMs, hybridLastMs, hybridTotalMs, hybridMaxMs)
    }

    /** `AlgorithmTimers::default`: every field 0. */
    constructor Default()
      ensures Snapshot() == Timings(0.0, 0.0, 0.0, 0.0, 0.0, 0.0)
    {
      aStarLastMs := 0.0;
      aStarTotalMs := 0.0;
      aStarMaxMs := 0.0;
      hybridLastMs := 0.0;
      hybridTotalMs := 0.0;
      hybridMaxMs := 0.0;
    }

    method ResetTotals()
      modifies this
      ensures Snapshot() == ResetTotalsOf(old(Snapshot()))
      ensures aStarTotalMs == 0.0 && aStarMaxMs == 0.0 && hybridTotalMs == 0.0 && hybridMaxMs == 0.0
      ensures aStarLastMs == old(aStarLastMs) && hybridLastMs == old(hybridLastMs)
    {
      aStarTotalMs := 0.0;
      aStarMaxMs := 0.0;
      hybridTotalMs := 0.0;
      hybridMaxMs := 0.0;
    }
  }
}
